=== FILE: README.md ===
# Rooftop platformer: a Dafny model of the game logic

This project models the deterministic core of a small Ebiten side-scroller.
The player runs and jumps across an endless row of rooftops, and each rooftop
landed on for the first time scores one point. The model covers five parts:

- **Platform generator** (`Platforms`, and the older fixed-width `LegacyPlatforms`).
  It places the next rooftop within a bounded horizontal gap and vertical band.
  It picks the width from a score-indexed weight table by inverse-CDF over a draw.
  It maps each width to a building sprite.
- **Frame** (`Games`). It keeps the platform window, runs the game-over check,
  and applies input or the bot, gravity, the landing and side collisions, the
  screen clamp and the camera. It also covers restart.
- **Player kinematics** (`Players`, the older `LegacyPlayers`, `PlayerStats`,
  `Positions`): acceleration with instant reversal and a speed cap, jumping,
  friction, resets, and the sprite countdown.
- **Animation state machine** (`Animations`): Idle, Running and Jumping, each
  with its own countdown and sprite index.
- **UI logic** (`Buttons`, `Clouds`): the centred button, its strict hit test
  and press latch, cloud parallax, and the random pick helper.

Modelling conventions:

- Coordinates and velocities are `real`.
- Go's `int(float64)` is `GoMath.Trunc`, which truncates toward zero.
- Go's integer `/` is `GoMath.Quo`.
- Every random draw is a parameter. A `rand.Intn(n)` draw `k` satisfies
  `GoMath.FitsSpan(k, n)`, and a `rand.Float64` draw `r` lies in `[0, 1)`.
- Every key or mouse reading is a parameter: a `Keys` record of flags, a cursor
  position, and a just-pressed flag.
- A Go runtime panic is the `Panic` case of `Outcomes.Result`. The model
  includes two kinds:
  - `IndexOutOfRange`: indexing an empty platform list, or `pickWidth`'s
    `numbers[i]` past the end of `numbers`.
  - `NonPositiveIntn`: `rand.Intn` with a non-positive bound.
- The package-level `bot` switch is a field of `Games.Game`.

The source is inconsistent in places, and the model takes one reading of it:

- `game/game.go` calls `NewPlatform(x, y)` and `GenerateNewRandomPlatform(prev)`.
  `game/platform.go` defines `NewPlatform(x, y, width)` and
  `GenerateNewRandomPlatform(prev, score)`. The model uses the `game/platform.go`
  signatures, with the score as the difficulty.
- The start platform therefore needs a width, and the model gives it `platformWidth` (200).
- `AccelerateLeft` and `AccelerateRight` are `Move(-1)` and `Move(1)`.
- `Stats` is declared both in `game/player.go`, with the field `playerSpeed`, and in
  `game/stats.go`, with the field `playerAcceleration`. It is one record here.
- The source uses several constants without defining them: `maxPlatformHeight`,
  `minimumPlatformHeight` and `maxYDeltaBottom`. They are the fields of the
  `Config.Tuning` parameter. The fields are integers, so the model assumes these
  constants are whole numbers.
- The top-level package uses the screen, size and spacing constants without
  defining them. The model takes the values from `game/game.go`.

Four points of the code are easy to misread:

- The acceleration rule keeps only `|velocityX| <= maxPlayerSpeed + playerAcceleration`,
  not `|velocityX| <= maxPlayerSpeed`. The acceleration is added whenever the
  speed is at most the cap, so one step may overshoot it
  (`Players.AccelerateKeepsSpeedBound`).
- A reversal zeroes the velocity and then still accelerates in the same call,
  so the new velocity is `dir * playerAcceleration` (`Players.Accelerate`).
- `startOver` calls `Reset` and then `ResetPlayer`. That order gives a new
  player except for the sprite counters. The opposite order would leave the
  player at (0, 0) (`Players.RestartGivesNewPlayer`).
- `botShouldJump` is a distance test only. A bot that is not jumping jumps on the last 50 pixels
  of a platform when the next one is at most 50 pixels lower
  (`Games.BotShouldJump`, `Games.BotLogic`).

## Model

| member | source | states |
|---|---|---|
| GoMath.Trunc | game/platform.go:43 | Go's `int(v)`: the result is the integer toward zero within one of `v`, from below for `v >= 0` and from above for negative `v` |
| GoMath.Quo | game/platform.go:36 | Go's truncating integer quotient by a positive divisor: quotient and remainder bounds for both signs of the dividend |
| GoMath.TruncSpan | game/platform.go:41-43 | truncating both ends of a real interval of integral length `n` gives an integer span of `n` or `n - 1` |
| GoMath.TruncWhole | game/platform.go:47-48 | a whole number is unchanged by `int(float64(n))` |
| Positions.NewPos | pos.go:18-20 | `GetX` and `GetY` of a new position read back the given coordinates |
| Positions.SetPos | pos.go:34-36 | `GetPos` after `SetPos(q)` returns `q` |
| Positions.SetX | pos.go:38-40 | x becomes the given value and y is unchanged |
| Positions.SetY | pos.go:42-44 | y becomes the given value and x is unchanged |
| Positions.GetDist | pos.go:46-48 | the distance is non-negative and is one of the two horizontal differences, so it is the absolute difference of the x coordinates |
| Positions.GetDistSymmetricIgnoresY | pos.go:46-48 | the distance is symmetric, zero from a point to itself, and unaffected by either y coordinate |
| Positions.Reset | pos.go:50-53 | both coordinates become 0 |
| PlayerStats.SetJumpForce | game/stats.go:9-11 | reading the jump force back gives the set value; the other two fields are unchanged |
| PlayerStats.SetPlayerAcceleration | game/stats.go:13-15 | reading the acceleration back gives the set value; the other two fields are unchanged |
| PlayerStats.SetMaxPlayerSpeed | game/stats.go:17-19 | reading the speed cap back gives the set value; the other two fields are unchanged |
| PlayerStats.SetStats | game/player.go:103-107 | whatever the record held, all three getters read back the given values |
| PlayerStats.StartingStats | game/player.go:48-52 | the starting values are jump force -12, acceleration 0.2 and maximum speed 5: an upward impulse, and an acceleration that is positive and below the cap |
| Players.NewPlayer | game/player.go:54-67 | a new player is horizontally centred at the top, still, not jumping, with the starting stats and the first sprite |
| Players.ResetPlayer | game/player.go:69-75 | the position goes to the start spot and the stats to the starting ones; velocities, jump flag and sprite are untouched |
| Players.Reset | game/player.go:77-82 | position, both velocities and the jump flag are zeroed; stats and sprite are kept |
| Players.RestartGivesNewPlayer | game/game.go:109-113 | `Reset` then `ResetPlayer`, as in `startOver`, gives a new player except that the sprite counters carry on |
| Players.Jump | game/player.go:84-87 | vertical velocity becomes the jump force and the jump flag is set; nothing else changes |
| Players.Accelerate | game/player.go:90-95 | the three cases: a velocity opposing `dir` is zeroed and then accelerated; at or under the cap the acceleration is added; over the cap the velocity is kept |
| Players.AccelerateKeepsSpeedBound | game/player.go:89-97 | with non-negative stats, `abs(velocityX) <= maxPlayerSpeed + playerAcceleration` is preserved and the new velocity never opposes `dir` |
| Players.Move | game/player.go:89-97 | the velocity is updated by the acceleration rule and x moves by exactly the new velocity; y, stats, vertical velocity, jump flag and sprite are unchanged |
| Players.MoveLeft | game/player.go:99 | is exactly `Move(-1)`: never leaves a rightward velocity and never moves right |
| Players.MoveRight | game/player.go:101 | is exactly `Move(1)`: never leaves a leftward velocity and never moves left |
| Players.SetStats | game/player.go:103-107 | the three stats read back the given values and nothing else about the player changes |
| Players.CycleImage | game/player.go:119-128 | a positive countdown is decremented and the sprite is kept; at zero the countdown restarts at 10 and the sprite index advances modulo `NumPlayerImages`, staying in range; position, stats, velocities and jump flag are untouched |
| Players.CycleCadence | game/player.go:119-128 | from a countdown of `c` the sprite stays for `c` frames and advances on frame `c + 1` |
| LegacyPlayers.Reset | player.go:40-45 | position, velocities and the jump flag are zeroed; stats are kept |
| LegacyPlayers.Jump | player.go:47-50 | vertical velocity becomes the jump force and the jump flag is set; position, stats and horizontal velocity are unchanged |
| LegacyPlayers.Move | player.go:52-60 | the same acceleration rule as the current game, then x moves by the new velocity; y and the other fields are unchanged |
| LegacyPlayers.MoveLeft | player.go:62 | is exactly `Move(-1)`, and never moves right |
| LegacyPlayers.MoveRight | player.go:64 | is exactly `Move(1)`, and never moves left |
| LegacyPlayers.SetStats | player.go:66-70 | the three stats read back the given values and nothing else changes |
| LegacyPlayers.CopiesAgree | player.go:40-70 | the older player agrees with the current one on `Reset`, `Jump`, `Move` and `SetStats` once the sprite state is forgotten |
| Platforms.NewPlatform | game/platform.go:23-33 | the platform has the given position and width, is unvisited, and its reveal counter is 0 |
| Platforms.Visit | game/platform.go:146-153 | the visited flag is set and the geometry is kept |
| Platforms.PlatformIndex | game/platform.go:35-37 | the sprite index lies in `[0, 5)` exactly for widths in `[51, 200)` |
| Platforms.BuildingIndices | game/platform.go:35-37 | widths 75, 100, 125, 150, 175 map to indices 0 to 4, so every building width has a sprite |
| Platforms.Weights | game/platform.go:57-71 | every table has five non-negative weights summing to 1 |
| Platforms.WeightThresholds | game/platform.go:57-71 | the score thresholds are strict: 10 uses the easiest table and 11 the next, 20 and 21 differ, 60 and 61 differ |
| Platforms.PickFrom | game/platform.go:74-81 | the scan from index `i` returns the least index at or after `i` whose prefix sum exceeds `r`, or the table length |
| Platforms.PickIndex | game/platform.go:74-81 | inverse-CDF: the least index whose prefix sum exceeds `r`, or the table length when none does |
| Platforms.PickWidth | game/platform.go:54-83 | the pick is `numbers[k]` for the inverse-CDF index `k`, the last number when the scan falls off the end, always one of the numbers, and never a panic with at least five numbers |
| Platforms.NoFallback | game/platform.go:74-82 | with exact arithmetic and `r` in `[0, 1)` the scan always stops inside the table |
| Platforms.EasyTableNeverNarrow | game/platform.go:69-81 | up to a score of 10 the pick is 175, 150 or 125 (never 100 or 75), and 175 exactly when `r < 0.5` |
| Platforms.XSpanPositive | game/platform.go:41-43 | the horizontal `rand.Intn` bound is 99 or 100, so it never panics |
| Platforms.XDrawInBand | game/platform.go:41-43 | the drawn x lies in `[minX, minX + 100)` |
| Platforms.YDrawInBand | game/platform.go:45-48 | the drawn y lies in `[minY, maxY)` |
| Platforms.Generate | game/platform.go:39-52 | succeeds exactly when the truncated vertical span is positive; then x lies 250 to 350 past the previous right edge, y lies in `[minY, maxY)` and so at most 120 above the previous top and not above `maxPlatformHeight`, the width is the building width `pickWidth` picks for the score and the draw `r`, x and y are the band minima plus the draws `kx` and `ky`, and the platform is unvisited |
| Platforms.GenerateOkIff | game/platform.go:45-48 | under a valid tuning, generation succeeds exactly when `minY < maxY` |
| Platforms.GenerationChains | game/platform.go:45-48 | under a valid tuning, a generated platform can always generate the next one |
| Platforms.GiveOrTake | game/platform.go:85-87 | succeeds exactly when the truncated range is non-empty, and then lies in `[num - delta, num + delta)` |
| Platforms.GiveOrTakeWhole | game/platform.go:85-87 | for whole `num` and positive whole `delta` the range has `2 * delta` slots and the result is `num - delta + k` |
| LegacyPlatforms.NewPlatform | platform.go:16-21 | the platform has the given position, width `platformWidth`, and is unvisited |
| LegacyPlatforms.Generate | platform.go:23-30 | succeeds exactly when the truncated band is non-empty; then x is exactly one spacing right of the previous platform, y lies in `[max(prev.y - 120, 180), min(460, prev.y + maxYDeltaBottom))`, so it is never below 460, and the width is `platformWidth` |
| LegacyPlatforms.YDrawInBand | platform.go:26-28 | the drawn y lies in the band above |
| LegacyPlatforms.GenerateOkIffWhole | platform.go:26-28 | for a whole previous y, generation succeeds exactly when the band's lower limit is below its upper limit |
| Animations.NextState | game/animation.go:45-127 | the player is in Jumping exactly when it is jumping; a grounded state is Idle exactly when the speed is below 0.8; landing goes to Running; staying keeps the state with its counters; switching gives fresh zeroed counters |
| Animations.NoJumpToIdle | game/animation.go:122-127 | Jumping never goes straight to Idle |
| Animations.ShouldAnimate | game/animation.go:24-136 | fires exactly when the countdown is not positive, then restarts it at 6 for Running (the shared base), 24 for Idle and 9 for Jumping (lines 24-31, 63-70, 129-136); otherwise decrements it; phase and sprite are kept |
| Animations.AnimateCadence | game/animation.go:24-31 | from a countdown of `c`, the next `c` calls return false and the one after fires, in the same phase |
| Animations.DoState | game/animation.go:55-59 | the sprite index advances modulo the state's sprite count (2 for Idle, 8 for Running and Jumping, lines 102-106 and 138-142), so a valid index stays valid |
| Buttons.NewButton | game/button.go:19-29 | the rectangle is centred on the given point, has the given size, and is not latched |
| Buttons.HitTestStrict | game/button.go:50 | a cursor on any edge of the rectangle does not hit it, and the centre of a button of positive size does |
| Buttons.GetIsPressed | game/button.go:43-52 | a press registers exactly when the cursor is on the button and the mouse went down this frame |
| Buttons.Latch | game/button.go:54-60 | the action fires exactly on a registered press while the latch is open; the latch ends closed exactly when it fired; the geometry is kept |
| Buttons.Update | game/button.go:54-60 | the action fires exactly when the cursor is on the button, the mouse went down and the latch was open; the latch ends closed exactly when it fired |
| Buttons.HeldPressAlternates | game/button.go:54-60 | a press registering on every frame fires on alternate frames only, starting at once when the latch was open |
| Clouds.NewCloud | game/cloud.go:17-24 | the cloud has the given position and speed and transparency 0 |
| Clouds.OffsetX | game/cloud.go:40-42 | with the camera at the origin a cloud is drawn at its world x; a cloud of speed 0 stays put on screen; one of speed 1 scrolls with the camera |
| Clouds.ParallaxShift | game/cloud.go:40-42 | moving the camera by `d` shifts the cloud by `-d * speed`, so the offset is `x - cameraX * speed` for every speed and a cloud with speed below 1 lags the foreground |
| Clouds.PickRand | game/cloud.go:44-49 | with no items the result is the zero value; otherwise it is the item at the drawn index, which is one of the items |
| Games.LastPlatform | game/game.go:80-82 | the last platform, and a panic exactly on an empty list |
| Games.FirstPlatform | game/game.go:84-86 | the first platform, and a panic exactly on an empty list |
| Games.WellSpacedOrdered | game/platform.go:41-43 | in a window kept to the generator's gap rule, every platform starts right of every earlier platform's right edge |
| Games.StartPlatform | game/game.go:37-38 | the start platform is at (220, 180), 200 wide, and unvisited |
| Games.InitPlatforms | game/game.go:52-57 | succeeds exactly when the start platform can generate; then the window is the start platform followed by the platform generated from it, and it is well spaced |
| Games.PlatformHandling | game/game.go:59-68 | panics on an empty list, and when the player is within 200 of the last platform and generating from it panics; otherwise the platform generated from the last is appended exactly when the player is within 200 of the last platform, the first platform is dropped exactly when the player is more than 600 from it, order is kept, and nothing but the list changes |
| Games.DropFirstKeepsSpacing | game/game.go:65-67 | dropping the first platform keeps the window well spaced |
| Games.PlatformHandlingKeepsSpacing | game/game.go:59-68 | the window maintenance keeps the window well spaced |
| Games.SlowPlayer | game/game.go:292-294 | friction multiplies the horizontal velocity by 0.8: the speed does not grow, the sign is kept, and nothing else changes |
| Games.FrictionDecays | game/game.go:292-294 | a rightward speed decays strictly toward zero over frames and never reaches or crosses it |
| Games.ApplyGravity | game/game.go:148-150 | the vertical velocity grows by 0.5 and y moves by exactly the new velocity; nothing else changes |
| Games.FreeFlight | game/game.go:148-150 | closed form of `n` frames of gravity: velocity `vy + 0.5 n` and height `y + n vy + 0.5 n (n + 1) / 2` |
| Games.JumpApex | game/game.go:31-32 | with the starting jump force a jump rises at most 138, reached at frame 23; 138 is within `jumpApexHeight` (140) and above `maxYDeltaTop` (120) |
| Games.PlayerControls | game/game.go:214-228 | Left wins over Right and moves x by the new velocity; no direction key applies friction and leaves x alone; Space jumps only when not already jumping; y and stats are unchanged |
| Games.BotShouldJump | game/game.go:230-236 | the bot jumps exactly when the next platform is at most 50 lower and the player is on the last 50 pixels before the right edge and not jumping |
| Games.JumpingBotUnchanged | game/game.go:202-212 | a jumping player is never cued, so the bot loop leaves it alone |
| Games.BotJumpsOnce | game/game.go:202-212 | the bot loop gives one jump if any neighbouring pair cues it, and the unchanged player otherwise |
| Games.BotLogic | game/game.go:202-212 | the bot accelerates right, then jumps exactly when some neighbouring pair cues it |
| Games.Land | game/game.go:160-172 | on horizontal overlap with the bottom edge crossing the top this frame, the player is snapped on top, stops falling and stops jumping, and the first landing scores one and marks the platform visited; otherwise nothing changes |
| Games.SideHit | game/game.go:174-183 | a player below the top that came from the left of the left edge and now overlaps it is put flush against the left edge and stopped; otherwise one that came from right of the right edge and now overlaps it is put flush against the right edge and stopped; in every other case, and whenever the player is not below the top, nothing changes; a hit leaves the player clear of the platform |
| Games.LandingSkipsSideTest | game/game.go:160-183 | after a landing on a platform, that platform's side test leaves the player alone |
| Games.Collide | game/game.go:152-184 | the collision loop changes only `visited` flags, never clears one, and adds to the score exactly the number of newly visited platforms; a player not falling lands on nothing; at most one platform is landed on, so the score grows by at most one, the player either keeps its vertical state or rests on a platform, and a newly visited platform is the one it rests on; stats are kept and the horizontal speed does not grow |
| Games.CollideLandsOnlyFromCrossing | game/game.go:160-172 | a landing only comes from a crossing: when the loop changes the player's vertical state, the player rests on a platform whose top it fell through |
| Games.CollideFirstCrossingLands | game/game.go:160-172 | a crossing lands: a player over a platform whose top it falls through, with every earlier platform at or below its bottom, rests on that platform, and it is visited |
| Games.CollideAbove | game/game.go:152-184 | a player at or above every platform top touches none of them, so the loop changes nothing |
| Games.CollideHorizontalOnlyFromSide | game/game.go:174-183 | a wall stop is the only horizontal change: when the loop changes x or the horizontal velocity, the velocity is zero and the player is flush against a side of some platform |
| Games.CollideNoSideCrossing | game/game.go:152-184 | a player that is not falling and crosses no platform side comes out of the loop unchanged |
| Games.CollideWallStops | game/game.go:174-178 | a player that is not falling, is below a platform's top and crossed its left edge this frame, having crossed no side of an earlier platform it is below, ends flush against that edge with zero horizontal velocity |
| Games.CollideKeepsSpacing | game/game.go:152-184 | collisions keep the window well spaced |
| Games.ClampToScreen | game/game.go:186-191 | a player left of the camera is moved to `cameraX`; one overflowing the right edge is moved to `cameraX + 600`; a player already inside is unchanged; afterwards `cameraX <= x <= cameraX + 600`; only x changes |
| Games.ClampIdempotent | game/game.go:186-191 | clamping twice is clamping once |
| Games.CameraFollow | game/game.go:193-197 | the camera is non-negative, at least each of its two terms, and equal to one of them or to 0 |
| Games.ResetGameState | game/game.go:101-107 | the player is reset, the list emptied, camera and score zeroed, and game over cleared |
| Games.StartOver | game/game.go:109-113 | succeeds exactly when the start platform can generate; then score 0, camera 0, not over, two platforms starting with the start platform, well spaced, and a restarted player |
| Games.NewGame | game/game.go:88-98 | a new player, the two starting platforms, well spaced, and every counter and switch at zero |
| Games.StartOverSucceeds | game/game.go:109-113 | with a valid tuning whose lowest allowed top lies below y = 60, the start platform's climb limit (180 - 120), a restart never panics |
| Games.Step | game/game.go:139-199 | panics exactly on an empty window; otherwise only `visited` flags change, the score grows by the newly visited count and by at most one; the player either fell by one gravity step after input or the bot (vertical velocity plus 0.5, y plus the new velocity) or rests on a platform, and a newly visited platform is the one it rests on; the player is on screen, the camera is `CameraFollow` of the new player x and the first platform, and stats, game over and bot are kept |
| Games.StepLandsOnlyFromCrossing | game/game.go:142-172 | in a frame, the player's vertical state after input and gravity changes only by resting on a platform whose top it fell through |
| Games.StepFirstCrossingLands | game/game.go:142-172 | in a frame, a player that after input and gravity crosses the top of a platform it is over, with every earlier platform at or below it, rests on that platform, which is now visited |
| Games.StepAbove | game/game.go:142-191 | in a frame without contact, the new player is the input-and-gravity player pushed on screen, and the window and score are unchanged |
| Games.StepHorizontalOnlyFromSide | game/game.go:139-191 | in a frame, the horizontal velocity after input and gravity is kept and only the screen clamp moves x, or the player was stopped at a platform side: zero velocity, and x is that side's stop position after the clamp |
| Games.StepWallStops | game/game.go:139-191 | in a frame, a wall stop at a platform's left edge leaves zero horizontal velocity and x at the clamped stop position |
| Games.Update | game/game.go:115-137 | the game is over after a frame exactly when it was over or the player reached twice the screen height, and Enter was not held; a restart zeroes the score and turns the bot on exactly when the player was left of the start platform |
| Games.GameOverFreezes | game/game.go:123-137 | at or below twice the screen height without Enter, the frame sets game over and leaves player, score, camera and bot unchanged |
| Games.StartOverEstablishes | game/game.go:109-113 | a restarted session has a well-spaced window and a bounded horizontal speed |
| Games.ControlsKeepSpeed | game/game.go:214-228 | input handling and the bot keep the horizontal speed bound |
| Games.StepKeepsInvariant | game/game.go:139-199 | the live part of a frame keeps the window well spaced and the speed bounded |
| Games.UpdateKeepsInvariant | game/game.go:115-200 | every successful frame, whether it plays, freezes or restarts, keeps the window well spaced and the speed bounded |
| Games.UpdateScoresNewVisits | game/game.go:168-171 | on a live frame the score grows by exactly the number of newly visited platforms, and no kept `visited` flag is cleared |

## Left out

- Games.CollideWallStops: states the stop at a left edge only. The right-edge stop needs an extra assumption: a move far enough left to cross the right edges of two platforms is stopped by the later one in the list. `Games.CollideHorizontalOnlyFromSide` still covers both edges.
- Rendering is not modelled. This covers every `Draw` method, `drawHitBox`, `Layout`, text measurement, image scaling and the progressive reveal of visited buildings.
- Sprite loading is not modelled: `NewPlatform`, `Visit`, `cycleImage`, `doState` and `getImage` load images through the media package, which is not part of this model.
  - Only the sprite indices are modelled.
  - `Platforms.PlatformIndex` shows that the 200-wide start platform would ask for sprite 5. Only five building sprites exist.
- `framesSinceVisited` is only read by `Draw`, and nothing in the core advances it. The model keeps the field at its initial 0.
- Key and mouse polling is not modelled: `ebiten.IsKeyPressed`, `CursorPosition` and `IsMouseButtonJustPressed` become parameters.
- The debug `Printf` of `Update` is left out.
- `debugMode` in `getIsPressed` only guards a `Printf`, so it is left out.
- The button callback `buttonFn` is not run. `Buttons.Update` reports whether it would run.
- The Go random number generator is not modelled: every draw is a parameter, constrained to the range Go guarantees.
- Go float64 rounding is not modelled. The arithmetic is exact over `real`.
  - `Platforms.Weights` states that each table sums exactly to 1, and `Platforms.NoFallback` depends on this.
  - In float64 a table's sum may fall just short of 1. A draw above that sum would then take the fallback.
- The `float32` transparency of `Cloud` is a `real`.
- `Games.Update` states only the game-over and restart rules in its own contract. The rest of its behaviour is stated by `Games.GameOverFreezes`, `Games.UpdateKeepsInvariant` and `Games.UpdateScoresNewVisits`, and by `Games.Step` and `Games.StartOver`, which it calls.
- `Games.SpeedBounded` uses `maxPlayerSpeed + playerAcceleration`, not `maxPlayerSpeed`, because the code keeps only the former.
- `Games.StartOverSucceeds` assumes a tuning in which the start platform can generate. The source leaves the tuning constants undefined.
- `Platforms.NoFallback` holds over exact reals only (see the float64 item above).
- Audio, `cueMusic`, the mobile and clipboard interop, geocode text, backgrounds, coins and the run loop in `main.go` are outside the model.
- `DistToLastPlatform` and `DistToFirstPlatform` are not separate members. They are `Positions.GetDist` applied to the last and first platform inside `Games.PlatformHandling`.
- `getImageNum` is not separate: it is the `imageNum` field.

=== FILE: animations.dfy ===
/** The player's animation state machine (game/animation.go): three states,
    each with its own countdown and sprite index. */
module Animations {
  import opened Config
  import opened GoMath

  datatype Phase = Idle | Running | Jumping

  datatype AnimState = AnimState(phase: Phase, animationCounter: int, imageNum: int)

  /** Below this horizontal speed the player counts as standing. */
  const HesRunning: real := 0.8

  /** A newly entered state: both counters at zero. */
  function Fresh(phase: Phase): AnimState { AnimState(phase, 0, 0) }

  /** `getNextState` of the three states. The player is in the jumping
      state exactly when it is jumping; otherwise a grounded state follows
      the speed, and landing always goes to Running first. Staying returns
      the same state, counters and all; switching starts a fresh one. */
  function NextState(s: AnimState, isJumping: bool, velocityX: real): (r: AnimState)
    ensures r.phase == Jumping <==> isJumping
    ensures s.phase != Jumping && !isJumping ==> (r.phase == Idle <==> Abs(velocityX) < HesRunning)
    ensures s.phase == Jumping && !isJumping ==> r.phase == Running
    ensures r.phase == s.phase ==> r == s
    ensures r.phase != s.phase ==> r == Fresh(r.phase)
  {
    match s.phase
    case Idle =>
      if isJumping then Fresh(Jumping)
      else if Abs(velocityX) < HesRunning then s
      else Fresh(Running)
    case Running =>
      if isJumping then Fresh(Jumping)
      else if Abs(velocityX) < HesRunning then Fresh(Idle)
      else s
    case Jumping =>
      if !isJumping then Fresh(Running) else s
  }

  /** Jumping never leads straight to Idle: the landing frame goes to
      Running, and only a further slow frame reaches Idle. */
  lemma NoJumpToIdle(s: AnimState, isJumping: bool, velocityX: real)
    requires s.phase == Jumping
    ensures NextState(s, isJumping, velocityX).phase != Idle
  {
  }

  /** The countdown each state restarts at when it fires: the shared
      (Running) one 6, Idle 24, Jumping 9. */
  function Period(phase: Phase): int
  {
    match phase
    case Idle => 24
    case Running => 6
    case Jumping => 9
  }

  /** `shouldAnimate`: fires (true) exactly when the countdown is not
      positive, restarting it at the state's period; otherwise counts down
      by one. The phase and sprite index are untouched. */
  function ShouldAnimate(s: AnimState): (res: (bool, AnimState))
    ensures res.0 <==> s.animationCounter <= 0
    ensures res.0 ==> res.1.animationCounter == Period(s.phase)
    ensures !res.0 ==> res.1.animationCounter == s.animationCounter - 1
    ensures res.1.phase == s.phase && res.1.imageNum == s.imageNum
  {
    if s.animationCounter > 0 then (false, s.(animationCounter := s.animationCounter - 1))
    else (true, s.(animationCounter := Period(s.phase)))
  }

  /** The state after `n` calls of `ShouldAnimate`. */
  function Tick(s: AnimState, n: nat): AnimState
    decreases n
  {
    if n == 0 then s else Tick(ShouldAnimate(s).1, n - 1)
  }

  /** The first `n` calls of `ShouldAnimate` all return false. */
  predicate Quiet(s: AnimState, n: nat)
    decreases n
  {
    n == 0 || (!ShouldAnimate(s).0 && Quiet(ShouldAnimate(s).1, n - 1))
  }

  /** From a countdown of `c >= 0`, the next `c` calls stay quiet and the
      one after fires, so a state animates once every `Period + 1` frames. */
  lemma {:induction false} AnimateCadence(s: AnimState)
    requires 0 <= s.animationCounter
    ensures Quiet(s, s.animationCounter)
    ensures Tick(s, s.animationCounter).animationCounter == 0
    ensures ShouldAnimate(Tick(s, s.animationCounter)).0
    ensures Tick(s, s.animationCounter).phase == s.phase
    decreases s.animationCounter
  {
    if s.animationCounter > 0 {
      AnimateCadence(ShouldAnimate(s).1);
    }
  }

  /** How many sprites a state cycles through: Idle has its own two, Running
      and Jumping both use the eight running sprites. */
  function ImageCount(phase: Phase): (n: int)
    ensures 0 < n
  {
    if phase == Idle then NumIdleImages else NumPlayerImages
  }

  /** `doState`: the sprite index steps forward, wrapping at the state's
      sprite count, so a valid index stays valid. */
  function DoState(s: AnimState): (r: AnimState)
    ensures 0 <= s.imageNum < ImageCount(s.phase) ==>
              0 <= r.imageNum < ImageCount(s.phase) && r.imageNum == (s.imageNum + 1) % ImageCount(s.phase)
    ensures r.phase == s.phase && r.animationCounter == s.animationCounter
  {
    var next := s.imageNum + 1;
    s.(imageNum := if next >= ImageCount(s.phase) then 0 else next)
  }
}

=== FILE: buttons.dfy ===
/** On-screen buttons (game/button.go): a rectangle, a click hit-test and a
    latch that fires the button's action at most every other frame. The
    action itself is a callback the model reports as a `fired` flag. */
module Buttons {
  import opened Positions

  datatype Button = Button(pos: Pos, width: real, height: real, isPressed: bool)

  /** The rectangle is centred on the given point. */
  function NewButton(centerX: real, centerY: real, width: real, height: real): (b: Button)
    ensures GetX(b.pos) + width / 2.0 == centerX && GetY(b.pos) + height / 2.0 == centerY
    ensures b.width == width && b.height == height && !b.isPressed
  {
    Button(Pos(centerX - width / 2.0, centerY - height / 2.0), width, height, false)
  }

  /** The hit test of `getIsPressed`, for an integer cursor position: the
      cursor must be strictly inside the rectangle. */
  predicate CursorOnButton(b: Button, x: int, y: int)
  {
    x as real < b.pos.x + b.width && x as real > b.pos.x && y as real < b.pos.y + b.height && y as real > b.pos.y
  }

  /** A cursor on the rectangle's border does not hit; the centre of a
      button of positive size does. */
  lemma HitTestStrict(b: Button, x: int, y: int, cx: int, cy: int, w: real, h: real)
    ensures (x as real == b.pos.x || x as real == b.pos.x + b.width
             || y as real == b.pos.y || y as real == b.pos.y + b.height) ==> !CursorOnButton(b, x, y)
    ensures 0.0 < w && 0.0 < h ==> CursorOnButton(NewButton(cx as real, cy as real, w, h), cx, cy)
  {
  }

  /** `getIsPressed`: a press registers only when the cursor is on the
      button and the mouse button went down this frame. */
  function GetIsPressed(b: Button, x: int, y: int, justPressed: bool): (pressed: bool)
    ensures pressed ==> CursorOnButton(b, x, y) && justPressed
    ensures CursorOnButton(b, x, y) && justPressed ==> pressed
  {
    CursorOnButton(b, x, y) && justPressed
  }

  /** The latch of `Update`, given whether a press registered this frame:
      the action fires only on a registered press while the latch is open,
      and the latch is then closed; any other frame reopens it. */
  function Latch(b: Button, pressed: bool): (res: (Button, bool))
    ensures res.1 <==> pressed && !b.isPressed
    ensures res.0.isPressed <==> res.1
    ensures res.0.pos == b.pos && res.0.width == b.width && res.0.height == b.height
  {
    if pressed && !b.isPressed then (b.(isPressed := true), true)
    else (b.(isPressed := false), false)
  }

  /** `Update`: `GetIsPressed` followed by the latch; the second component
      says whether the button's action ran. */
  function Update(b: Button, x: int, y: int, justPressed: bool): (res: (Button, bool))
    ensures res.1 <==> CursorOnButton(b, x, y) && justPressed && !b.isPressed
    ensures res.0.isPressed <==> res.1
    ensures res.0.pos == b.pos && res.0.width == b.width && res.0.height == b.height
  {
    Latch(b, GetIsPressed(b, x, y, justPressed))
  }

  /** Whether the action fires on each of a run of frames, given whether a
      press registers on each. */
  function Fires(b: Button, presses: seq<bool>): (fs: seq<bool>)
    ensures |fs| == |presses|
    decreases |presses|
  {
    if |presses| == 0 then []
    else
      var step := Latch(b, presses[0]);
      [step.1] + Fires(step.0, presses[1..])
  }

  /** Presses registering on every frame fire on alternate frames only,
      starting at once if the latch was open. */
  lemma {:induction false} HeldPressAlternates(b: Button, presses: seq<bool>, i: nat)
    requires forall j :: 0 <= j < |presses| ==> presses[j]
    requires i < |presses|
    ensures Fires(b, presses)[i] <==> (i % 2 == 0) != b.isPressed
    decreases i
  {
    var step := Latch(b, presses[0]);
    if i > 0 {
      HeldPressAlternates(step.0, presses[1..], i - 1);
      assert Fires(b, presses)[i] == Fires(step.0, presses[1..])[i - 1];
    }
  }
}

=== FILE: clouds.dfy ===
/** Background clouds (game/cloud.go): parallax offset and the random pick
    helper, with its `rand.Intn` draw as a parameter. */
module Clouds {
  import opened Positions
  import opened GoMath

  datatype Cloud = Cloud(speed: real, transparency: real, pos: Pos)

  function NewCloud(x: real, y: real, speed: real): (c: Cloud)
    ensures GetX(c.pos) == x && GetY(c.pos) == y && c.speed == speed && c.transparency == 0.0
  {
    Cloud(speed, 0.0, Pos(x, y))
  }

  /** Screen x of a cloud. With the camera at the origin a cloud is drawn
      at its world x; a cloud of speed 0 never moves on screen; one of speed
      1 scrolls with the platforms, which are drawn at `x - cameraX`.
      Together with `ParallaxShift` this pins the offset for every speed. */
  function OffsetX(c: Cloud, cameraX: real): (sx: real)
    ensures cameraX == 0.0 ==> sx == GetX(c.pos)
    ensures c.speed == 0.0 ==> sx == GetX(c.pos)
    ensures c.speed == 1.0 ==> sx == GetX(c.pos) - cameraX
  {
    c.pos.x - cameraX * c.speed
  }

  /** Parallax: moving the camera by `d` moves the cloud on screen by
      `-d * speed`, so a cloud with speed below one lags the foreground.
      The second clause is the shift read from the origin, where `OffsetX`
      is the world x: it is the definition of `OffsetX` recovered from the
      first and the origin case. */
  lemma ParallaxShift(c: Cloud, cameraX: real, d: real)
    ensures OffsetX(c, cameraX + d) == OffsetX(c, cameraX) - d * c.speed
    ensures OffsetX(c, d) == GetX(c.pos) - d * c.speed
    ensures 0.0 <= c.speed < 1.0 && 0.0 < d ==>
              OffsetX(c, cameraX) - OffsetX(c, cameraX + d) < d
  {
    assert (cameraX + d) * c.speed == cameraX * c.speed + d * c.speed;
    if 0.0 <= c.speed < 1.0 && 0.0 < d {
      assert d * c.speed < d * 1.0;
    }
  }

  /** `pickRand(items...)`: the zero value for no items, otherwise the item
      at the drawn index, which is always one of the items. */
  function PickRand<T>(items: seq<T>, k: int, zero: T): (w: T)
    requires FitsSpan(k, |items|)
    ensures |items| == 0 ==> w == zero
    ensures 0 < |items| ==> w in items && w == items[k]
  {
    if |items| == 0 then zero else items[k]
  }
}

=== FILE: config.dfy ===
/** The game's named constants. Integer-valued Go constants that take part
    in float64 arithmetic are written as reals. */
module Config {

  // game/game.go
  const ScreenWidth: real := 640.0
  const ScreenHeight: real := 480.0
  const Gravity: real := 0.5
  const JumpApexHeight: real := 140.0
  const PlayerSize: real := 40.0
  const PlatformWidth: real := 200.0
  const PlatformSpacing: real := 300.0
  const StartingPlatformHeight: real := 300.0
  /** `(screenWidth / 2) - (platformWidth / 2)`, i.e. 220. */
  const StartingPlatformX: real := ScreenWidth / 2.0 - PlatformWidth / 2.0
  /** `screenHeight - startingPlatformHeight`, i.e. 180. */
  const StartingPlatformY: real := ScreenHeight - StartingPlatformHeight
  const MaxYDeltaTop: real := 120.0

  // game/player.go
  const Left: real := -1.0
  const Right: real := 1.0
  const StartingJumpForce: real := -12.0
  const StartingPlayerSpeed: real := 0.2
  const StartingMaxPlayerSpeed: real := 5.0
  /** `cycleImage` restarts its countdown at this value. */
  const PlayerCycleFrames: int := 10

  // media/media.go
  const NumPlayerImages: int := 8
  const NumIdleImages: int := 2
  const NumBuildingImages: int := 5

  /** The three constants the game's platform code uses but does not define.
      They are parameters of the model; `Valid` states what the generator
      needs of them. */
  datatype Tuning = Tuning(
    maxPlatformHeight: int,      // highest allowed platform top (smallest y)
    minimumPlatformHeight: int,  // lowest platform top sits this far above the screen bottom
    maxYDeltaBottom: int)        // older generator: how far below the previous a platform may go
  {
    /** The generator's vertical band `[maxPlatformHeight, screenHeight - minimumPlatformHeight)` is non-empty and starts on screen. */
    predicate Valid() {
      0 <= maxPlatformHeight && (maxPlatformHeight as real) < ScreenHeight - minimumPlatformHeight as real
    }
  }
}

=== FILE: games.dfy ===
/** One session of the game (game/game.go): the platform window, the
    per-frame physics and collision step, the camera, game over and
    restart, and the simple bot. Key polling becomes a `Keys` snapshot and
    every random draw a parameter; the package-level `bot` switch is a
    field of the session. */
module Games {
  import opened Config
  import opened GoMath
  import opened Positions
  import opened PlayerStats
  import opened Players
  import opened Platforms
  import opened Outcomes

  datatype Game = Game(
    player: Player,
    platforms: seq<Platform>,
    cameraX: real,
    score: int,
    gameOver: bool,
    bot: bool)

  /** The keys read during one frame: `left` is Left or A held, `right` is
      Right or D held, `jump` is Space held and `enter` is Enter held. */
  datatype Keys = Keys(left: bool, right: bool, jump: bool, enter: bool)

  /** The draws a frame may use: one generation in the platform window, one
      in a restart. */
  datatype FrameDraws = FrameDraws(spawn: Draws, restart: Draws)

  // ---------------------------------------------------------------------
  // Platform window

  /** `GetLastPlatform`; Go indexes out of range on an empty list. */
  function LastPlatform(ps: seq<Platform>): (res: Result<Platform>)
    ensures res.Ok? <==> 0 < |ps|
    ensures res.Ok? ==> res.value == ps[|ps| - 1]
  {
    if |ps| == 0 then Panic(IndexOutOfRange) else Ok(ps[|ps| - 1])
  }

  /** `GetFirstPlatform`; Go indexes out of range on an empty list. */
  function FirstPlatform(ps: seq<Platform>): (res: Result<Platform>)
    ensures res.Ok? <==> 0 < |ps|
    ensures res.Ok? ==> res.value == ps[0]
  {
    if |ps| == 0 then Panic(IndexOutOfRange) else Ok(ps[0])
  }

  /** The gap rule between neighbours: the next rooftop starts between 250
      and 350 pixels past the previous one's right edge. */
  predicate Gap(a: Platform, b: Platform) {
    a.pos.x + a.width + PlatformSpacing - 50.0 <= b.pos.x < a.pos.x + a.width + PlatformSpacing + 50.0
  }

  /** The platform window's shape: positive widths and the gap rule between
      every pair of neighbours. */
  predicate WellSpaced(ps: seq<Platform>) {
    && (forall i :: 0 <= i < |ps| ==> 0.0 < ps[i].width)
    && (forall i :: 0 < i < |ps| ==> Gap(ps[i - 1], ps[i]))
  }

  /** A well-spaced window is ordered left to right without overlap: every
      platform starts right of every earlier platform's right edge. */
  lemma {:induction false} WellSpacedOrdered(ps: seq<Platform>, i: int, j: int)
    requires WellSpaced(ps) && 0 <= i < j < |ps|
    ensures ps[i].pos.x + ps[i].width < ps[j].pos.x
    decreases j - i
  {
    assert Gap(ps[j - 1], ps[j]);
    if i < j - 1 {
      WellSpacedOrdered(ps, i, j - 1);
    }
  }

  /** The platform the game starts on, at the fixed start spot. The source's
      two-argument call is taken to use `platformWidth`. */
  function StartPlatform(): (p: Platform)
    ensures GetX(p.pos) == StartingPlatformX && GetY(p.pos) == StartingPlatformY
    ensures p.width == PlatformWidth && !p.visited
  {
    NewPlatform(StartingPlatformX, StartingPlatformY, PlatformWidth)
  }

  /** `initPlatforms`: the start platform followed by one generated from it. */
  function InitPlatforms(score: int, t: Tuning, d: Draws): (res: Result<seq<Platform>>)
    requires DrawsFit(StartPlatform(), t, d)
    ensures res.Ok? <==> 0 < YSpan(StartPlatform(), t)
    ensures res.Ok? ==> |res.value| == 2 && res.value[0] == StartPlatform() && WellSpaced(res.value)
    ensures res.Ok? ==> res.value[1] == Generate(StartPlatform(), score, t, d).value
  {
    match Generate(StartPlatform(), score, t, d)
    case Panic(f) => Panic(f)
    case Ok(p) => Ok([StartPlatform(), p])
  }

  /** `PlatformHandling`. When the player is within a platform width of the
      last platform, one platform generated from it is appended; then, when
      the player is more than two spacings from the first platform, that one
      is dropped. The order of the rest is kept and nothing but the list
      changes. */
  function PlatformHandling(g: Game, t: Tuning, d: Draws): (res: Result<Game>)
    requires 0 < |g.platforms| ==> DrawsFit(g.platforms[|g.platforms| - 1], t, d)
    ensures |g.platforms| == 0 ==> res == Panic(IndexOutOfRange)
    ensures 0 < |g.platforms| ==>
              var gen := Generate(g.platforms[|g.platforms| - 1], g.score, t, d);
              (res.Ok? <==> gen.Ok? || PlatformWidth <= GetDist(g.player.pos, g.platforms[|g.platforms| - 1].pos))
    ensures res.Ok? ==>
              var ps, ps' := g.platforms, res.value.platforms;
              var near := GetDist(g.player.pos, ps[|ps| - 1].pos) < PlatformWidth;
              var grown := if near then ps + [Generate(ps[|ps| - 1], g.score, t, d).value] else ps;
              && (GetDist(g.player.pos, ps[0].pos) > PlatformSpacing * 2.0 ==> ps' == grown[1..])
              && (GetDist(g.player.pos, ps[0].pos) <= PlatformSpacing * 2.0 ==> ps' == grown)
    ensures res.Ok? ==> res.value == g.(platforms := res.value.platforms)
    ensures 0 < |g.platforms| && res.Panic? ==> GetDist(g.player.pos, g.platforms[|g.platforms| - 1].pos) < PlatformWidth
  {
    match LastPlatform(g.platforms)
    case Panic(f) => Panic(f)
    case Ok(last) =>
      var grown :=
        if GetDist(g.player.pos, last.pos) < PlatformWidth then
          match Generate(last, g.score, t, d)
          case Panic(f) => Panic(f)
          case Ok(p) => Ok(g.platforms + [p])
        else Ok(g.platforms);
      match grown
      case Panic(f) => Panic(f)
      case Ok(ps) =>
        if GetDist(g.player.pos, ps[0].pos) > PlatformSpacing * 2.0 then Ok(g.(platforms := ps[1..]))
        else Ok(g.(platforms := ps))
  }

  /** Dropping the first platform keeps the window well spaced. */
  lemma DropFirstKeepsSpacing(ps: seq<Platform>)
    requires WellSpaced(ps) && 0 < |ps|
    ensures WellSpaced(ps[1..])
  {
    var qs := ps[1..];
    forall i | 0 < i < |qs|
      ensures Gap(qs[i - 1], qs[i])
    {
      assert qs[i - 1] == ps[i] && qs[i] == ps[i + 1];
    }
  }

  /** The window stays well spaced under `PlatformHandling`: the generator's
      gap bounds are exactly the gap rule. */
  lemma PlatformHandlingKeepsSpacing(g: Game, t: Tuning, d: Draws)
    requires 0 < |g.platforms| ==> DrawsFit(g.platforms[|g.platforms| - 1], t, d)
    requires WellSpaced(g.platforms)
    requires PlatformHandling(g, t, d).Ok?
    ensures WellSpaced(PlatformHandling(g, t, d).value.platforms)
  {
    var ps := g.platforms;
    var ps' := PlatformHandling(g, t, d).value.platforms;
    var gen := Generate(ps[|ps| - 1], g.score, t, d);
    if gen.Ok? {
      var ext := ps + [gen.value];
      assert 0.0 < gen.value.width by {
        assert gen.value.width in BuildingWidths;
      }
      forall i | 0 < i < |ext|
        ensures Gap(ext[i - 1], ext[i])
      {
        if i < |ps| {
          assert ext[i - 1] == ps[i - 1] && ext[i] == ps[i];
        }
      }
      assert WellSpaced(ext);
      if ps' == ext[1..] {
        DropFirstKeepsSpacing(ext);
      }
    }
    if ps' == ps[1..] {
      DropFirstKeepsSpacing(ps);
    }
  }

  // ---------------------------------------------------------------------
  // Player physics

  /** `slowPlayer`: friction when no direction key is held. The speed
      shrinks by a fifth and the direction is kept. */
  function SlowPlayer(p: Player): (r: Player)
    ensures r.velocityX == 0.8 * p.velocityX
    ensures Abs(r.velocityX) <= Abs(p.velocityX)
    ensures (0.0 < p.velocityX <==> 0.0 < r.velocityX) && (p.velocityX < 0.0 <==> r.velocityX < 0.0)
    ensures r == p.(velocityX := r.velocityX)
  {
    p.(velocityX := p.velocityX * 0.8)
  }

  /** `SlowPlayer` over `n` frames without input. */
  function SlowTimes(p: Player, n: nat): Player
    decreases n
  {
    if n == 0 then p else SlowPlayer(SlowTimes(p, n - 1))
  }

  /** Friction decays a rightward speed strictly toward zero without ever
      reaching or crossing it. */
  lemma {:induction false} FrictionDecays(p: Player, n: nat)
    requires 0.0 < p.velocityX
    ensures 0.0 < SlowTimes(p, n + 1).velocityX < SlowTimes(p, n).velocityX <= p.velocityX
    decreases n
  {
    if n > 0 {
      FrictionDecays(p, n - 1);
    }
  }

  /** One frame of gravity: the vertical velocity grows by the gravity
      constant, then the player falls by the new velocity. */
  function ApplyGravity(p: Player): (r: Player)
    ensures r.velocityY == p.velocityY + Gravity
    ensures GetY(r.pos) - GetY(p.pos) == r.velocityY && GetX(r.pos) == GetX(p.pos)
    ensures r == p.(pos := r.pos, velocityY := r.velocityY)
  {
    var vy := p.velocityY + Gravity;
    p.(velocityY := vy, pos := SetY(p.pos, p.pos.y + vy))
  }

  /** `ApplyGravity` over `n` frames without landing. */
  function FallTimes(p: Player, n: nat): Player
    decreases n
  {
    if n == 0 then p else ApplyGravity(FallTimes(p, n - 1))
  }

  /** Closed form of `n` frames of free flight: velocity grows linearly and
      height follows the discrete parabola `y + n*vy + g*n*(n+1)/2`. */
  lemma {:induction false} FreeFlight(p: Player, n: nat)
    ensures FallTimes(p, n).velocityY == p.velocityY + Gravity * n as real
    ensures FallTimes(p, n).pos.y == p.pos.y + n as real * p.velocityY + Gravity * (n * (n + 1)) as real / 2.0
    ensures FallTimes(p, n).pos.x == p.pos.x
    decreases n
  {
    if n > 0 {
      FreeFlight(p, n - 1);
      var m := n - 1;
      assert (n * (n + 1)) as real == (m * (m + 1)) as real + 2.0 * n as real;
    }
  }

  /** With the starting jump force a jump rises at most 138 pixels, reached
      after 23 frames: within the 140 of `jumpApexHeight`, and above the
      120 of `maxYDeltaTop`, so the highest next platform can be reached. */
  lemma JumpApex(p: Player, n: nat)
    requires GetJumpForce(p.stats) == StartingJumpForce
    ensures FallTimes(Jump(p), n).pos.y >= p.pos.y - 138.0
    ensures FallTimes(Jump(p), 23).pos.y == p.pos.y - 138.0
    ensures 138.0 <= JumpApexHeight && MaxYDeltaTop < 138.0
  {
    var q := Jump(p);
    FreeFlight(q, n);
    FreeFlight(q, 23);
    assert (23 * 24) as real == 552.0;
    ParabolaAboveApex(n);
    var m := n * (n + 1);
    assert FallTimes(q, n).pos.y == p.pos.y - 12.0 * n as real + m as real / 4.0;
  }

  /** The integer fact behind `JumpApex`: `n(n+1) - 48n + 552`, which is
      `(n - 23)(n - 24)`, is never negative. */
  lemma ParabolaAboveApex(n: int)
    ensures n * (n + 1) - 48 * n + 552 >= 0
  {
    assert n * (n + 1) - 48 * n + 552 == (n - 23) * (n - 24);
    if n <= 23 {
      var a: nat, b: nat := 23 - n, 24 - n;
      assert (n - 23) * (n - 24) == a * b;
    } else {
      var a: nat, b: nat := n - 24, n - 23;
      assert (n - 23) * (n - 24) == a * b;
    }
  }

  /** `playerControls` with the keys as flags: Left wins over Right, no key
      applies friction, and Space jumps only when not already jumping. */
  function PlayerControls(p: Player, k: Keys): (r: Player)
    ensures k.left ==> r.velocityX == Accelerate(p.velocityX, Left, p.stats)
    ensures !k.left && k.right ==> r.velocityX == Accelerate(p.velocityX, Right, p.stats)
    ensures !k.left && !k.right ==> r.velocityX == 0.8 * p.velocityX
    ensures r.isJumping <==> p.isJumping || k.jump
    ensures r.velocityY == (if k.jump && !p.isJumping then GetJumpForce(p.stats) else p.velocityY)
    ensures r.stats == p.stats && GetY(r.pos) == GetY(p.pos)
    ensures k.left || k.right ==> GetX(r.pos) == GetX(p.pos) + r.velocityX
    ensures !k.left && !k.right ==> GetX(r.pos) == GetX(p.pos)
  {
    var moved := if k.left then MoveLeft(p) else if k.right then MoveRight(p) else SlowPlayer(p);
    if k.jump && !moved.isJumping then Jump(moved) else moved
  }

  // ---------------------------------------------------------------------
  // The bot

  /** `botShouldJump(p, nextP)`: jump when the next platform is not more
      than 50 pixels lower and the player is on the last 50 pixels before
      `p`'s right edge, and not already jumping. */
  function BotShouldJump(pl: Player, p: Platform, next: Platform): (b: bool)
    ensures b ==> !pl.isJumping && pl.pos.x < p.pos.x + p.width
    ensures b <==> next.pos.y <= p.pos.y + 50.0 && p.pos.x + p.width - 50.0 < pl.pos.x < p.pos.x + p.width && !pl.isJumping
  {
    if p.pos.y + 50.0 < next.pos.y then false
    else
      var pRight := p.pos.x + p.width;
      pRight - 50.0 < pl.pos.x && pl.pos.x < pRight && !pl.isJumping
  }

  /** The loop of `botLogic` from index `i`: for each platform with a
      successor, jump if `BotShouldJump` says so. */
  function BotJumps(pl: Player, ps: seq<Platform>, i: nat): Player
    requires i <= |ps|
    decreases |ps| - i
  {
    if i + 1 >= |ps| then pl
    else BotJumps(if BotShouldJump(pl, ps[i], ps[i + 1]) then Jump(pl) else pl, ps, i + 1)
  }

  /** The pair of neighbours at index `j` tells the bot to jump. */
  predicate CueAt(pl: Player, ps: seq<Platform>, j: int)
  {
    0 <= j < |ps| - 1 && BotShouldJump(pl, ps[j], ps[j + 1])
  }

  /** Some pair of neighbours from index `i` on tells the bot to jump. */
  predicate SomeJumpCue(pl: Player, ps: seq<Platform>, i: nat)
  {
    exists j :: i <= j < |ps| && CueAt(pl, ps, j)
  }

  /** A player already jumping is never cued, so the loop leaves it alone. */
  lemma {:induction false} JumpingBotUnchanged(pl: Player, ps: seq<Platform>, i: nat)
    requires i <= |ps| && pl.isJumping
    ensures BotJumps(pl, ps, i) == pl
    ensures !SomeJumpCue(pl, ps, i)
    decreases |ps| - i
  {
    if i + 1 < |ps| {
      JumpingBotUnchanged(pl, ps, i + 1);
    }
  }

  /** Without a cue at index `i`, a cue from `i` on is one from `i + 1` on. */
  lemma CueAfterStart(pl: Player, ps: seq<Platform>, i: nat)
    requires i + 1 < |ps| && !BotShouldJump(pl, ps[i], ps[i + 1])
    ensures SomeJumpCue(pl, ps, i) == SomeJumpCue(pl, ps, i + 1)
  {
    if SomeJumpCue(pl, ps, i) {
      var j :| i <= j < |ps| && CueAt(pl, ps, j);
      assert j != i;
    }
    if SomeJumpCue(pl, ps, i + 1) {
      var j :| i + 1 <= j < |ps| && CueAt(pl, ps, j);
      assert i <= j;
    }
  }

  /** The bot's loop jumps at most once: its result is one jump if any pair
      of neighbours cues it, and the unchanged player otherwise. */
  lemma {:induction false} BotJumpsOnce(pl: Player, ps: seq<Platform>, i: nat)
    requires i <= |ps|
    ensures BotJumps(pl, ps, i) == if SomeJumpCue(pl, ps, i) then Jump(pl) else pl
    decreases |ps| - i
  {
    if i + 1 < |ps| {
      if BotShouldJump(pl, ps[i], ps[i + 1]) {
        JumpingBotUnchanged(Jump(pl), ps, i + 1);
        assert CueAt(pl, ps, i);
      } else {
        BotJumpsOnce(pl, ps, i + 1);
        CueAfterStart(pl, ps, i);
      }
    }
  }

  /** `botLogic`: always accelerate right, then jump if cued. */
  function BotLogic(pl: Player, ps: seq<Platform>): (r: Player)
    ensures r == (if SomeJumpCue(MoveRight(pl), ps, 0) then Jump(MoveRight(pl)) else MoveRight(pl))
  {
    BotJumpsOnce(MoveRight(pl), ps, 0);
    BotJumps(MoveRight(pl), ps, 0)
  }

  // ---------------------------------------------------------------------
  // Collisions

  /** The player's span overlaps the platform's horizontally. */
  predicate Overlaps(pl: Player, p: Platform) {
    pl.pos.x + PlayerSize > p.pos.x && pl.pos.x < p.pos.x + p.width
  }

  /** The player's bottom edge crossed the platform top during this frame's
      vertical move: below it now, at or above it before. */
  predicate FallsOnto(pl: Player, p: Platform) {
    pl.pos.y + PlayerSize > p.pos.y && pl.pos.y + PlayerSize - pl.velocityY <= p.pos.y
  }

  /** The landing test of one platform. A landing snaps the player onto the
      top, stops the fall and ends the jump; the first landing on a platform
      marks it visited and scores one. Without a landing nothing changes. */
  function Land(pl: Player, p: Platform, score: int): (res: (Player, Platform, int))
    ensures Overlaps(pl, p) && FallsOnto(pl, p) ==>
              && res.0.pos.y + PlayerSize == p.pos.y && res.0.velocityY == 0.0 && !res.0.isJumping
              && res.1.visited
              && res.2 == score + (if p.visited then 0 else 1)
    ensures !(Overlaps(pl, p) && FallsOnto(pl, p)) ==> res == (pl, p, score)
    ensures res.0.pos.x == pl.pos.x && res.0.velocityX == pl.velocityX && res.0.stats == pl.stats
    ensures res.1 == p.(visited := res.1.visited)
  {
    if Overlaps(pl, p) && FallsOnto(pl, p) then
      var landed := pl.(pos := SetY(pl.pos, p.pos.y - PlayerSize), velocityY := 0.0, isJumping := false);
      if !p.visited then (landed, p.(visited := true), score + 1) else (landed, p, score)
    else (pl, p, score)
  }

  /** The side test of one platform, using last frame's x. Only a player
      whose bottom is below the platform top can hit a side; a hit clamps
      the player to that side and stops it, after which its span no longer
      overlaps the platform. */
  function SideHit(pl: Player, prevX: real, p: Platform): (r: Player)
    ensures pl.pos.y + PlayerSize <= p.pos.y ==> r == pl
    ensures r != pl ==> r.velocityX == 0.0 && !Overlaps(r, p)
    ensures r != pl ==> r.pos.x + PlayerSize == p.pos.x || r.pos.x == p.pos.x + p.width
    ensures r != pl ==> (prevX + PlayerSize <= p.pos.x && r.pos.x < pl.pos.x) || (p.pos.x + p.width <= prevX && pl.pos.x < r.pos.x)
    ensures r.pos.y == pl.pos.y && r.velocityY == pl.velocityY && r.isJumping == pl.isJumping && r.stats == pl.stats
    ensures pl.pos.y + PlayerSize > p.pos.y && prevX + PlayerSize <= p.pos.x && p.pos.x < pl.pos.x + PlayerSize ==>
              r.pos.x == p.pos.x - PlayerSize && r.velocityX == 0.0
    ensures (&& pl.pos.y + PlayerSize > p.pos.y
             && !(prevX + PlayerSize <= p.pos.x && p.pos.x < pl.pos.x + PlayerSize)
             && p.pos.x + p.width <= prevX && pl.pos.x < p.pos.x + p.width) ==>
              r.pos.x == p.pos.x + p.width && r.velocityX == 0.0
    ensures (&& !(prevX + PlayerSize <= p.pos.x && p.pos.x < pl.pos.x + PlayerSize)
             && !(p.pos.x + p.width <= prevX && pl.pos.x < p.pos.x + p.width)) ==> r == pl
  {
    if pl.pos.y + PlayerSize > p.pos.y then
      if prevX + PlayerSize <= p.pos.x && pl.pos.x + PlayerSize > p.pos.x then
        pl.(pos := SetX(pl.pos, p.pos.x - PlayerSize), velocityX := 0.0)
      else if prevX >= p.pos.x + p.width && pl.pos.x < p.pos.x + p.width then
        pl.(pos := SetX(pl.pos, p.pos.x + p.width), velocityX := 0.0)
      else pl
    else pl
  }

  /** A player that just landed on a platform is on its top, so that
      platform's side test leaves it alone. */
  lemma LandingSkipsSideTest(pl: Player, prevX: real, p: Platform, score: int)
    requires Overlaps(pl, p) && FallsOnto(pl, p)
    ensures SideHit(Land(pl, p, score).0, prevX, p) == Land(pl, p, score).0
  {
  }

  /** How many platforms went from unvisited to visited. */
  function NewlyVisited(before: seq<Platform>, after: seq<Platform>): (n: nat)
    requires |before| == |after|
    ensures n <= |before|
  {
    if |before| == 0 then 0
    else (if !before[0].visited && after[0].visited then 1 else 0) + NewlyVisited(before[1..], after[1..])
  }

  /** The player stands on top of `p`: its bottom edge is at the top, it is
      not falling and not jumping. */
  predicate RestsOn(pl: Player, p: Platform) {
    pl.pos.y + PlayerSize == p.pos.y && pl.velocityY == 0.0 && !pl.isJumping
  }

  /** The vertical state of `a` and `b` agrees. */
  predicate SameFall(a: Player, b: Player) {
    a.pos.y == b.pos.y && a.velocityY == b.velocityY && a.isJumping == b.isJumping
  }

  /** The collision loop: landing then side test against every platform in
      turn, with no early exit. Only `visited` flags change on the
      platforms, they never go back to false, and the score grows by exactly
      the number of platforms newly visited. A player that is not falling
      lands on nothing; a landing stops the fall, so there is at most one
      landing per frame: the player either keeps its vertical state or rests
      on one of the platforms, and a newly visited platform is the one it
      rests on. */
  function Collide(pl: Player, prevX: real, ps: seq<Platform>, score: int): (res: (Player, seq<Platform>, int))
    ensures |res.1| == |ps|
    ensures forall i :: 0 <= i < |ps| ==> res.1[i] == ps[i].(visited := res.1[i].visited)
    ensures forall i :: 0 <= i < |ps| ==> ps[i].visited ==> res.1[i].visited
    ensures res.2 == score + NewlyVisited(ps, res.1)
    ensures res.0.stats == pl.stats && Abs(res.0.velocityX) <= Abs(pl.velocityX)
    ensures pl.velocityY <= 0.0 ==> SameFall(res.0, pl) && res.1 == ps && res.2 == score
    ensures res.2 <= score + 1
    ensures SameFall(res.0, pl) || exists i :: 0 <= i < |ps| && RestsOn(res.0, ps[i])
    ensures forall i :: 0 <= i < |ps| && !ps[i].visited && res.1[i].visited ==> RestsOn(res.0, ps[i])
    decreases |ps|
  {
    if |ps| == 0 then (pl, ps, score)
    else
      var landed := Land(pl, ps[0], score);
      var pl1 := SideHit(landed.0, prevX, ps[0]);
      var rest := Collide(pl1, prevX, ps[1..], landed.2);
      assert ([landed.1] + rest.1)[1..] == rest.1;
      var res := (rest.0, [landed.1] + rest.1, rest.2);
      if Overlaps(pl, ps[0]) && FallsOnto(pl, ps[0]) then
        assert SameFall(rest.0, pl1) && rest.1 == ps[1..] && rest.2 == landed.2;
        assert RestsOn(res.0, ps[0]);
        res
      else
        assert SameFall(pl1, pl) && landed.1 == ps[0];
        assert forall i :: 0 <= i < |rest.1| ==> res.1[i + 1] == rest.1[i] && ps[i + 1] == ps[1..][i];
        res
  }

  /** A landing only comes from a crossing: whenever the collision loop
      changes the player's vertical state, the player rests on a platform
      whose top it fell through this frame. */
  lemma {:induction false} CollideLandsOnlyFromCrossing(pl: Player, prevX: real, ps: seq<Platform>, score: int)
    ensures var res := Collide(pl, prevX, ps, score);
              !SameFall(res.0, pl) ==> exists i :: 0 <= i < |ps| && FallsOnto(pl, ps[i]) && RestsOn(res.0, ps[i])
    decreases |ps|
  {
    if 0 < |ps| {
      var landed := Land(pl, ps[0], score);
      var pl1 := SideHit(landed.0, prevX, ps[0]);
      var rest := Collide(pl1, prevX, ps[1..], landed.2);
      var res := Collide(pl, prevX, ps, score);
      assert res.0 == rest.0;
      if Overlaps(pl, ps[0]) && FallsOnto(pl, ps[0]) {
        assert RestsOn(res.0, ps[0]);
      } else if !SameFall(res.0, pl) {
        CollideLandsOnlyFromCrossing(pl1, prevX, ps[1..], landed.2);
        var i :| 0 <= i < |ps[1..]| && FallsOnto(pl1, ps[1..][i]) && RestsOn(rest.0, ps[1..][i]);
        assert FallsOnto(pl, ps[i + 1]) && RestsOn(res.0, ps[i + 1]);
      }
    }
  }

  /** A crossing lands: when the player is over platform `i` and falls
      through its top, and every platform before it lies at or below the
      player's bottom (so none of them touched it), the player ends up
      resting on platform `i` and that platform is visited. */
  lemma {:induction false} CollideFirstCrossingLands(pl: Player, prevX: real, ps: seq<Platform>, score: int, i: nat)
    requires i < |ps| && Overlaps(pl, ps[i]) && FallsOnto(pl, ps[i])
    requires forall j :: 0 <= j < i ==> pl.pos.y + PlayerSize <= ps[j].pos.y
    ensures RestsOn(Collide(pl, prevX, ps, score).0, ps[i])
    ensures Collide(pl, prevX, ps, score).1[i].visited
    decreases i
  {
    var landed := Land(pl, ps[0], score);
    var pl1 := SideHit(landed.0, prevX, ps[0]);
    var rest := Collide(pl1, prevX, ps[1..], landed.2);
    var res := Collide(pl, prevX, ps, score);
    assert res.0 == rest.0 && res.1 == [landed.1] + rest.1;
    if i == 0 {
      assert RestsOn(pl1, ps[0]);
    } else {
      assert pl1 == pl;
      CollideFirstCrossingLands(pl, prevX, ps[1..], landed.2, i - 1);
      assert ps[1..][i - 1] == ps[i];
    }
  }

  /** A player whose bottom is at or above every platform top touches
      none of them: the loop changes nothing. */
  lemma {:induction false} CollideAbove(pl: Player, prevX: real, ps: seq<Platform>, score: int)
    requires forall j :: 0 <= j < |ps| ==> pl.pos.y + PlayerSize <= ps[j].pos.y
    ensures Collide(pl, prevX, ps, score) == (pl, ps, score)
    decreases |ps|
  {
    if 0 < |ps| {
      CollideAbove(pl, prevX, ps[1..], score);
      assert [ps[0]] + ps[1..] == ps;
    }
  }

  /** The player crossed a side of `p` this frame: it came from left of the
      left edge and now overlaps it, or from right of the right edge and now
      overlaps that. */
  predicate SideCrossed(pl: Player, prevX: real, p: Platform) {
    || (prevX + PlayerSize <= p.pos.x && p.pos.x < pl.pos.x + PlayerSize)
    || (p.pos.x + p.width <= prevX && pl.pos.x < p.pos.x + p.width)
  }

  /** A wall stop is the only horizontal change: when the loop changes the
      player's x or horizontal velocity, the player ends with no horizontal
      velocity, flush against a side of some platform. */
  lemma {:induction false} CollideHorizontalOnlyFromSide(pl: Player, prevX: real, ps: seq<Platform>, score: int)
    ensures var r := Collide(pl, prevX, ps, score).0;
              (r.pos.x != pl.pos.x || r.velocityX != pl.velocityX) ==>
                && r.velocityX == 0.0
                && exists i :: 0 <= i < |ps| && (r.pos.x + PlayerSize == ps[i].pos.x || r.pos.x == ps[i].pos.x + ps[i].width)
    decreases |ps|
  {
    if 0 < |ps| {
      var landed := Land(pl, ps[0], score);
      var pl1 := SideHit(landed.0, prevX, ps[0]);
      var rest := Collide(pl1, prevX, ps[1..], landed.2);
      var r := Collide(pl, prevX, ps, score).0;
      assert r == rest.0;
      CollideHorizontalOnlyFromSide(pl1, prevX, ps[1..], landed.2);
      if rest.0.pos.x != pl1.pos.x || rest.0.velocityX != pl1.velocityX {
        var i :| 0 <= i < |ps[1..]| && (r.pos.x + PlayerSize == ps[1..][i].pos.x || r.pos.x == ps[1..][i].pos.x + ps[1..][i].width);
        assert ps[1..][i] == ps[i + 1];
      } else if r.pos.x != pl.pos.x || r.velocityX != pl.velocityX {
        assert pl1 != landed.0;
      }
    }
  }

  /** A player that crosses no platform side and is not falling keeps
      every field through the loop. */
  lemma {:induction false} CollideNoSideCrossing(pl: Player, prevX: real, ps: seq<Platform>, score: int)
    requires pl.velocityY <= 0.0
    requires forall j :: 0 <= j < |ps| ==> !SideCrossed(pl, prevX, ps[j])
    ensures Collide(pl, prevX, ps, score).0 == pl
    decreases |ps|
  {
    if 0 < |ps| {
      CollideNoSideCrossing(pl, prevX, ps[1..], Land(pl, ps[0], score).2);
    }
  }

  /** A wall stops the player: a player that is not falling (so it lands on
      nothing), is below the top of platform `i` and crossed its left edge
      this frame ends flush against that edge with no horizontal velocity,
      provided it crossed no side of an earlier platform it is below. The
      platforms after `i` lie further right and cannot move it again. */
  lemma {:induction false} CollideWallStops(pl: Player, prevX: real, ps: seq<Platform>, score: int, i: nat)
    requires WellSpaced(ps) && i < |ps| && pl.velocityY <= 0.0
    requires pl.pos.y + PlayerSize > ps[i].pos.y
    requires prevX + PlayerSize <= ps[i].pos.x < pl.pos.x + PlayerSize
    requires forall j :: 0 <= j < i ==> pl.pos.y + PlayerSize <= ps[j].pos.y || !SideCrossed(pl, prevX, ps[j])
    ensures Collide(pl, prevX, ps, score).0.pos.x == ps[i].pos.x - PlayerSize
    ensures Collide(pl, prevX, ps, score).0.velocityX == 0.0
    decreases i
  {
    var landed := Land(pl, ps[0], score);
    var pl1 := SideHit(landed.0, prevX, ps[0]);
    assert landed.0 == pl;
    DropFirstKeepsSpacing(ps);
    if i == 0 {
      forall j | 0 <= j < |ps[1..]|
        ensures !SideCrossed(pl1, prevX, ps[1..][j])
      {
        WellSpacedOrdered(ps, 0, j + 1);
        assert ps[1..][j] == ps[j + 1];
      }
      CollideNoSideCrossing(pl1, prevX, ps[1..], landed.2);
    } else {
      assert pl1 == pl;
      CollideWallStops(pl, prevX, ps[1..], landed.2, i - 1);
    }
  }

  /** Collisions only touch the `visited` flags, so the window's shape is
      kept. */
  lemma CollideKeepsSpacing(pl: Player, prevX: real, ps: seq<Platform>, score: int)
    requires WellSpaced(ps)
    ensures WellSpaced(Collide(pl, prevX, ps, score).1)
  {
    var qs := Collide(pl, prevX, ps, score).1;
    forall i | 0 < i < |qs|
      ensures Gap(qs[i - 1], qs[i])
    {
      assert qs[i - 1].pos == ps[i - 1].pos && qs[i - 1].width == ps[i - 1].width;
      assert qs[i].pos == ps[i].pos;
    }
  }

  // ---------------------------------------------------------------------
  // Screen and camera

  /** Keep the player on screen: its span is pushed inside
      `[cameraX, cameraX + screenWidth]`; a player already inside is left
      alone. */
  function ClampToScreen(pl: Player, cameraX: real): (r: Player)
    ensures cameraX <= r.pos.x <= cameraX + ScreenWidth - PlayerSize
    ensures cameraX <= pl.pos.x <= cameraX + ScreenWidth - PlayerSize ==> r == pl
    ensures r == pl.(pos := r.pos) && r.pos.y == pl.pos.y
    ensures pl.pos.x < cameraX ==> r.pos.x == cameraX
    ensures cameraX <= pl.pos.x && cameraX + ScreenWidth < pl.pos.x + PlayerSize ==> r.pos.x == cameraX + ScreenWidth - PlayerSize
  {
    if pl.pos.x < cameraX then pl.(pos := SetX(pl.pos, cameraX))
    else if pl.pos.x + PlayerSize > cameraX + ScreenWidth then pl.(pos := SetX(pl.pos, cameraX + ScreenWidth - PlayerSize))
    else pl
  }

  /** The clamped x depends on the player's x alone. */
  lemma ClampSeesOnlyX(a: Player, b: Player, cameraX: real)
    requires a.pos.x == b.pos.x
    ensures ClampToScreen(a, cameraX).pos.x == ClampToScreen(b, cameraX).pos.x
  {
  }

  /** Clamping twice is clamping once. */
  lemma ClampIdempotent(pl: Player, cameraX: real)
    ensures ClampToScreen(ClampToScreen(pl, cameraX), cameraX) == ClampToScreen(pl, cameraX)
  {
  }

  /** The camera centres the player but never goes left of the first
      platform (less a player width) or of the world origin: the result is
      the largest of those three. */
  function CameraFollow(playerX: real, firstX: real): (c: real)
    ensures 0.0 <= c && playerX - ScreenWidth / 2.0 + PlayerSize / 2.0 <= c && firstX - PlayerSize <= c
    ensures c == 0.0 || c == playerX - ScreenWidth / 2.0 + PlayerSize / 2.0 || c == firstX - PlayerSize
  {
    var c := Max(playerX - ScreenWidth / 2.0 + PlayerSize / 2.0, firstX - PlayerSize);
    if c < 0.0 then 0.0 else c
  }

  // ---------------------------------------------------------------------
  // Reset and the frame

  /** `resetGameState`: the player's position, velocity and jump flag are
      zeroed, the list emptied, camera and score zeroed, game over cleared. */
  function ResetGameState(g: Game): (r: Game)
    ensures r.player == Players.Reset(g.player) && r.platforms == []
    ensures r.cameraX == 0.0 && r.score == 0 && !r.gameOver && r.bot == g.bot
  {
    g.(player := Players.Reset(g.player), platforms := [], cameraX := 0.0, score := 0, gameOver := false)
  }

  /** `startOver`: a fresh session with the player back at the start, the
      starting stats, and the two starting platforms. The `bot` switch
      stays as it is. */
  function StartOver(g: Game, t: Tuning, d: Draws): (res: Result<Game>)
    requires DrawsFit(StartPlatform(), t, d)
    ensures res.Ok? <==> 0 < YSpan(StartPlatform(), t)
    ensures res.Ok? ==>
              && res.value.score == 0 && res.value.cameraX == 0.0 && !res.value.gameOver
              && |res.value.platforms| == 2 && res.value.platforms[0] == StartPlatform()
              && WellSpaced(res.value.platforms)
              && res.value.player == ResetPlayer(Players.Reset(g.player))
              && res.value.bot == g.bot
  {
    var g1 := ResetGameState(g);
    var g2 := g1.(player := ResetPlayer(g1.player));
    match InitPlatforms(g2.score, t, d)
    case Panic(f) => Panic(f)
    case Ok(ps) => Ok(g2.(platforms := ps))
  }

  /** `NewGame`: the two starting platforms, a new player, and every
      counter and switch at its zero value. */
  function NewGame(t: Tuning, d: Draws): (res: Result<Game>)
    requires DrawsFit(StartPlatform(), t, d)
    ensures res.Ok? <==> 0 < YSpan(StartPlatform(), t)
    ensures res.Ok? ==>
              && res.value.player == NewPlayer()
              && |res.value.platforms| == 2 && res.value.platforms[0] == StartPlatform()
              && WellSpaced(res.value.platforms)
              && res.value.cameraX == 0.0 && res.value.score == 0 && !res.value.gameOver && !res.value.bot
  {
    match InitPlatforms(0, t, d)
    case Panic(f) => Panic(f)
    case Ok(ps) => Ok(Game(NewPlayer(), ps, 0.0, 0, false, false))
  }

  /** With a valid tuning whose lowest allowed top lies below the start
      platform's climb limit (`startingPlatformY - maxYDeltaTop`), a restart
      never panics. */
  lemma StartOverSucceeds(g: Game, t: Tuning, d: Draws)
    requires t.Valid() && StartingPlatformY - MaxYDeltaTop < MaxY(t)
    requires DrawsFit(StartPlatform(), t, d)
    ensures StartOver(g, t, d).Ok?
  {
    GenerateOkIff(StartPlatform(), 0, t, d);
  }

  /** The input half of a frame: the bot's logic when the bot plays, the
      keys otherwise. */
  function Steer(g: Game, k: Keys): Player {
    if g.bot then BotLogic(g.player, g.platforms) else PlayerControls(g.player, k)
  }

  /** The live part of a frame (`Update` after the game-over check): input
      or bot, gravity, collisions, screen clamp and camera. It panics only
      when the window is empty, at `GetFirstPlatform`. */
  function Step(g: Game, k: Keys): (res: Result<Game>)
    ensures res.Ok? <==> 0 < |g.platforms|
    ensures res.Ok? ==>
              var ps, ps' := g.platforms, res.value.platforms;
              && |ps'| == |ps|
              && (forall i :: 0 <= i < |ps| ==> ps'[i] == ps[i].(visited := ps'[i].visited))
              && (forall i :: 0 <= i < |ps| ==> ps[i].visited ==> ps'[i].visited)
              && res.value.score == g.score + NewlyVisited(ps, ps')
              && 0.0 <= res.value.cameraX && ps'[0].pos.x - PlayerSize <= res.value.cameraX
              && res.value.player.pos.x - ScreenWidth / 2.0 + PlayerSize / 2.0 <= res.value.cameraX
              && g.cameraX <= res.value.player.pos.x <= g.cameraX + ScreenWidth - PlayerSize
              && res.value.player.stats == g.player.stats
              && res.value.gameOver == g.gameOver && res.value.bot == g.bot
    ensures res.Ok? ==> res.value.cameraX == CameraFollow(res.value.player.pos.x, res.value.platforms[0].pos.x)
    ensures res.Ok? ==>
              var moved := Steer(g, k);
              var pl, ps, ps' := res.value.player, g.platforms, res.value.platforms;
              && res.value.score <= g.score + 1
              && ((&& pl.velocityY == moved.velocityY + Gravity
                   && pl.pos.y == g.player.pos.y + pl.velocityY
                   && pl.isJumping == moved.isJumping)
                  || exists i :: 0 <= i < |ps| && RestsOn(pl, ps[i]))
              && (forall i :: 0 <= i < |ps| && !ps[i].visited && ps'[i].visited ==> RestsOn(pl, ps[i]))
  {
    var prevX := g.player.pos.x;
    var fallen := ApplyGravity(Steer(g, k));
    var hit := Collide(fallen, prevX, g.platforms, g.score);
    var clamped := ClampToScreen(hit.0, g.cameraX);
    match FirstPlatform(hit.1)
    case Panic(f) => Panic(f)
    case Ok(first) =>
      Ok(g.(player := clamped, platforms := hit.1, score := hit.2, cameraX := CameraFollow(clamped.pos.x, first.pos.x)))
  }

  /** Lifted to a frame: the player's vertical state after input and
      gravity changes only by coming to rest on a platform whose top it fell
      through. */
  lemma StepLandsOnlyFromCrossing(g: Game, k: Keys)
    requires 0 < |g.platforms|
    ensures var fallen, pl := ApplyGravity(Steer(g, k)), Step(g, k).value.player;
              !SameFall(pl, fallen) ==>
                exists i :: 0 <= i < |g.platforms| && FallsOnto(fallen, g.platforms[i]) && RestsOn(pl, g.platforms[i])
  {
    CollideLandsOnlyFromCrossing(ApplyGravity(Steer(g, k)), g.player.pos.x, g.platforms, g.score);
  }

  /** Lifted to a frame: a player that after input and gravity is over a
      platform and falls through its top, with every earlier platform at or
      below its bottom, rests on that platform, which is now visited. */
  lemma StepFirstCrossingLands(g: Game, k: Keys, i: nat)
    requires i < |g.platforms|
    requires Overlaps(ApplyGravity(Steer(g, k)), g.platforms[i]) && FallsOnto(ApplyGravity(Steer(g, k)), g.platforms[i])
    requires forall j :: 0 <= j < i ==> ApplyGravity(Steer(g, k)).pos.y + PlayerSize <= g.platforms[j].pos.y
    ensures Step(g, k).Ok?
    ensures RestsOn(Step(g, k).value.player, g.platforms[i]) && Step(g, k).value.platforms[i].visited
  {
    CollideFirstCrossingLands(ApplyGravity(Steer(g, k)), g.player.pos.x, g.platforms, g.score, i);
  }

  /** A frame without contact: when after input and gravity the player is
      at or above every platform top, the new player is exactly that player
      pushed on screen, and the window and score are unchanged. */
  lemma StepAbove(g: Game, k: Keys)
    requires 0 < |g.platforms|
    requires forall j :: 0 <= j < |g.platforms| ==> ApplyGravity(Steer(g, k)).pos.y + PlayerSize <= g.platforms[j].pos.y
    ensures Step(g, k).Ok?
    ensures Step(g, k).value.player == ClampToScreen(ApplyGravity(Steer(g, k)), g.cameraX)
    ensures Step(g, k).value.platforms == g.platforms && Step(g, k).value.score == g.score
  {
    CollideAbove(ApplyGravity(Steer(g, k)), g.player.pos.x, g.platforms, g.score);
  }

  /** Lifted to a frame: the player's horizontal velocity after input and
      gravity is kept and only the screen clamp moves its x, or the player
      was stopped at a platform side, so its velocity is zero and its x is
      that side's stop position after the clamp. */
  lemma StepHorizontalOnlyFromSide(g: Game, k: Keys)
    requires 0 < |g.platforms|
    ensures var fallen, pl := ApplyGravity(Steer(g, k)), Step(g, k).value.player;
              || (pl.velocityX == fallen.velocityX && pl.pos.x == ClampToScreen(fallen, g.cameraX).pos.x)
              || (&& pl.velocityX == 0.0
                  && exists i :: 0 <= i < |g.platforms| &&
                       (|| pl.pos.x == ClampToScreen(fallen.(pos := SetX(fallen.pos, g.platforms[i].pos.x - PlayerSize)), g.cameraX).pos.x
                        || pl.pos.x == ClampToScreen(fallen.(pos := SetX(fallen.pos, g.platforms[i].pos.x + g.platforms[i].width)), g.cameraX).pos.x))
  {
    var fallen := ApplyGravity(Steer(g, k));
    var ps := g.platforms;
    var hit := Collide(fallen, g.player.pos.x, ps, g.score).0;
    var pl := Step(g, k).value.player;
    assert pl == ClampToScreen(hit, g.cameraX);
    CollideHorizontalOnlyFromSide(fallen, g.player.pos.x, ps, g.score);
    if hit.pos.x != fallen.pos.x || hit.velocityX != fallen.velocityX {
      var i :| 0 <= i < |ps| && (hit.pos.x + PlayerSize == ps[i].pos.x || hit.pos.x == ps[i].pos.x + ps[i].width);
      if hit.pos.x + PlayerSize == ps[i].pos.x {
        ClampSeesOnlyX(hit, fallen.(pos := SetX(fallen.pos, ps[i].pos.x - PlayerSize)), g.cameraX);
      } else {
        ClampSeesOnlyX(hit, fallen.(pos := SetX(fallen.pos, ps[i].pos.x + ps[i].width)), g.cameraX);
      }
    } else {
      ClampSeesOnlyX(hit, fallen, g.cameraX);
    }
  }

  /** Lifted to a frame: a wall stop at platform `i` leaves the player with
      no horizontal velocity at the left edge's stop position, after the
      screen clamp. */
  lemma StepWallStops(g: Game, k: Keys, i: nat)
    requires WellSpaced(g.platforms) && i < |g.platforms| && ApplyGravity(Steer(g, k)).velocityY <= 0.0
    requires ApplyGravity(Steer(g, k)).pos.y + PlayerSize > g.platforms[i].pos.y
    requires g.player.pos.x + PlayerSize <= g.platforms[i].pos.x < ApplyGravity(Steer(g, k)).pos.x + PlayerSize
    requires forall j :: 0 <= j < i ==>
               ApplyGravity(Steer(g, k)).pos.y + PlayerSize <= g.platforms[j].pos.y
               || !SideCrossed(ApplyGravity(Steer(g, k)), g.player.pos.x, g.platforms[j])
    ensures Step(g, k).Ok? && Step(g, k).value.player.velocityX == 0.0
    ensures var fallen := ApplyGravity(Steer(g, k));
              Step(g, k).value.player.pos.x
                == ClampToScreen(fallen.(pos := SetX(fallen.pos, g.platforms[i].pos.x - PlayerSize)), g.cameraX).pos.x
  {
    var fallen := ApplyGravity(Steer(g, k));
    CollideWallStops(fallen, g.player.pos.x, g.platforms, g.score, i);
    var hit := Collide(fallen, g.player.pos.x, g.platforms, g.score).0;
    assert Step(g, k).value.player == ClampToScreen(hit, g.cameraX);
    ClampSeesOnlyX(hit, fallen.(pos := SetX(fallen.pos, g.platforms[i].pos.x - PlayerSize)), g.cameraX);
  }

  /** `Update` minus debug printing, with the keys and draws as parameters.
      Falling to twice the screen height ends the game, which stays over
      until Enter restarts it; a restart from left of the start platform
      hands the game to the bot. */
  function Update(g: Game, t: Tuning, k: Keys, d: FrameDraws): (res: Result<Game>)
    requires 0 < |g.platforms| ==> DrawsFit(g.platforms[|g.platforms| - 1], t, d.spawn)
    requires DrawsFit(StartPlatform(), t, d.restart)
    ensures res.Ok? ==> (res.value.gameOver <==> (g.gameOver || ScreenHeight * 2.0 <= g.player.pos.y) && !k.enter)
    ensures res.Ok? && (g.gameOver || ScreenHeight * 2.0 <= g.player.pos.y) && k.enter ==>
              res.value.score == 0 && res.value.bot == (g.bot || g.player.pos.x < StartingPlatformX)
  {
    match PlatformHandling(g, t, d.spawn)
    case Panic(f) => Panic(f)
    case Ok(g1) =>
      var g2 := if g1.player.pos.y >= ScreenHeight * 2.0 then g1.(gameOver := true) else g1;
      if g2.gameOver then
        if k.enter then StartOver(if g2.player.pos.x < StartingPlatformX then g2.(bot := true) else g2, t, d.restart)
        else Ok(g2)
      else Step(g2, k)
  }

  // ---------------------------------------------------------------------
  // Properties across whole frames

  /** On a frame where the player is at or below twice the screen height
      and Enter is not held, the game is over and frozen: the player,
      score, camera and bot switch are exactly as before. */
  lemma GameOverFreezes(g: Game, t: Tuning, k: Keys, d: FrameDraws)
    requires 0 < |g.platforms| ==> DrawsFit(g.platforms[|g.platforms| - 1], t, d.spawn)
    requires DrawsFit(StartPlatform(), t, d.restart)
    requires PlatformHandling(g, t, d.spawn).Ok?
    requires ScreenHeight * 2.0 <= g.player.pos.y && !k.enter
    ensures Update(g, t, k, d).Ok?
    ensures var r := Update(g, t, k, d).value;
              r.gameOver && r.player == g.player && r.score == g.score
              && r.cameraX == g.cameraX && r.bot == g.bot
  {
  }

  /** The horizontal speed bound the acceleration rule keeps, for
      non-negative stats. */
  predicate SpeedBounded(pl: Player) {
    && 0.0 <= pl.stats.playerAcceleration && 0.0 <= pl.stats.maxPlayerSpeed
    && Abs(pl.velocityX) <= pl.stats.maxPlayerSpeed + pl.stats.playerAcceleration
  }

  /** What holds of a session between frames: a well-spaced platform window
      and a bounded horizontal speed. */
  predicate Invariant(g: Game) {
    WellSpaced(g.platforms) && SpeedBounded(g.player)
  }

  /** A restarted session satisfies the invariant. */
  lemma StartOverEstablishes(g: Game, t: Tuning, d: Draws)
    requires DrawsFit(StartPlatform(), t, d)
    requires StartOver(g, t, d).Ok?
    ensures Invariant(StartOver(g, t, d).value)
  {
  }

  /** Input handling keeps the speed bound: moving either way, friction and
      jumping. */
  lemma ControlsKeepSpeed(pl: Player, ps: seq<Platform>, k: Keys, bot: bool)
    requires SpeedBounded(pl)
    ensures SpeedBounded(if bot then BotLogic(pl, ps) else PlayerControls(pl, k))
  {
    AccelerateKeepsSpeedBound(pl.velocityX, Left, pl.stats);
    AccelerateKeepsSpeedBound(pl.velocityX, Right, pl.stats);
  }

  /** The live part of a frame keeps the invariant. */
  lemma StepKeepsInvariant(g: Game, k: Keys)
    requires Invariant(g) && Step(g, k).Ok?
    ensures Invariant(Step(g, k).value)
  {
    var prevX := g.player.pos.x;
    ControlsKeepSpeed(g.player, g.platforms, k, g.bot);
    CollideKeepsSpacing(ApplyGravity(Steer(g, k)), prevX, g.platforms, g.score);
  }

  /** Every successful frame keeps the invariant: the platform window stays
      well spaced and the horizontal speed stays bounded, whether the frame
      plays, freezes on game over, or restarts. */
  lemma UpdateKeepsInvariant(g: Game, t: Tuning, k: Keys, d: FrameDraws)
    requires 0 < |g.platforms| ==> DrawsFit(g.platforms[|g.platforms| - 1], t, d.spawn)
    requires DrawsFit(StartPlatform(), t, d.restart)
    requires Invariant(g) && Update(g, t, k, d).Ok?
    ensures Invariant(Update(g, t, k, d).value)
  {
    PlatformHandlingKeepsSpacing(g, t, d.spawn);
    var g1 := PlatformHandling(g, t, d.spawn).value;
    var g2 := if g1.player.pos.y >= ScreenHeight * 2.0 then g1.(gameOver := true) else g1;
    if g2.gameOver {
      if k.enter {
        var g3 := if g2.player.pos.x < StartingPlatformX then g2.(bot := true) else g2;
        StartOverEstablishes(g3, t, d.restart);
      }
    } else {
      StepKeepsInvariant(g2, k);
    }
  }

  /** A frame that neither restarts nor ends the game adds to the score
      exactly the platforms it visits for the first time, and never clears a
      `visited` flag of a platform the window kept. */
  lemma UpdateScoresNewVisits(g: Game, t: Tuning, k: Keys, d: FrameDraws)
    requires 0 < |g.platforms| ==> DrawsFit(g.platforms[|g.platforms| - 1], t, d.spawn)
    requires DrawsFit(StartPlatform(), t, d.restart)
    requires !g.gameOver && g.player.pos.y < ScreenHeight * 2.0
    requires Update(g, t, k, d).Ok?
    ensures var g1 := PlatformHandling(g, t, d.spawn).value;
            var r := Update(g, t, k, d).value;
            && |r.platforms| == |g1.platforms|
            && r.score == g.score + NewlyVisited(g1.platforms, r.platforms)
            && (forall i :: 0 <= i < |g1.platforms| ==> g1.platforms[i].visited ==> r.platforms[i].visited)
            && !r.gameOver
  {
  }
}

=== FILE: gomath.dfy ===
/** Go numeric conversions the game relies on, written out over unbounded
    integers and reals. Dafny's `/` is Euclidean and `.Floor` rounds down;
    Go's `int(f)` and integer `/` both truncate toward zero. */
module GoMath {

  /** Go's `int(v)` for a float64 `v`: drop the fraction, rounding toward zero. */
  function Trunc(v: real): (n: int)
    ensures 0.0 <= v ==> n as real <= v < n as real + 1.0
    ensures v < 0.0 ==> n as real - 1.0 < v <= n as real
  {
    if v >= 0.0 then v.Floor else -((-v).Floor)
  }

  /** Go's integer quotient `a / b` for a positive divisor (truncating). */
  function Quo(a: int, b: int): (q: int)
    requires b > 0
    ensures 0 <= a ==> 0 <= q && q * b <= a < q * b + b
    ensures a < 0 ==> q <= 0 && q * b - b < a <= q * b
  {
    if a >= 0 then a / b else -((-a) / b)
  }

  /** `k` is a possible result of `rand.Intn(n)`: for `n > 0` a value in
      `[0, n)`. (For `n <= 0` Go panics and no draw is made.) */
  predicate FitsSpan(k: int, n: int) {
    0 < n ==> 0 <= k < n
  }

  function Abs(v: real): (r: real)
    ensures 0.0 <= r && (r == v || r == -v)
  {
    if v < 0.0 then -v else v
  }

  function Max(a: real, b: real): (r: real)
    ensures a <= r && b <= r && (r == a || r == b)
  {
    if a < b then b else a
  }

  function Min(a: real, b: real): (r: real)
    ensures r <= a && r <= b && (r == a || r == b)
  {
    if a < b then a else b
  }

  /** Truncating both ends of an interval of integral length `n` yields an
      integer span of `n` or `n - 1` (the latter only when the interval
      straddles zero). */
  lemma TruncSpan(a: real, n: int)
    requires 0 <= n
    ensures n - 1 <= Trunc(a + n as real) - Trunc(a) <= n
  {
    var hi, lo := Trunc(a + n as real), Trunc(a);
    if 0.0 <= a {
      assert lo as real <= a < lo as real + 1.0;
      assert hi as real <= a + n as real < hi as real + 1.0;
    } else if 0.0 <= a + n as real {
      assert lo as real - 1.0 < a <= lo as real;
      assert hi as real <= a + n as real < hi as real + 1.0;
    } else {
      assert lo as real - 1.0 < a <= lo as real;
      assert hi as real - 1.0 < a + n as real <= hi as real;
    }
  }

  /** A whole number survives truncation unchanged. */
  lemma TruncWhole(n: int)
    ensures Trunc(n as real) == n
  {
    if n < 0 {
      assert (-(n as real)) == (-n) as real;
    }
  }
}

=== FILE: legacy_platforms.dfy ===
/** The older fixed-width platforms of the top-level package (platform.go).
    That package uses but does not define the screen and spacing constants;
    the model takes the values of game/game.go, and `maxYDeltaBottom` from
    the tuning parameters. */
module LegacyPlatforms {
  import opened Config
  import opened GoMath
  import opened Positions
  import opened Outcomes

  datatype Platform = Platform(pos: Pos, width: real, visited: bool)

  /** Every platform of the older game has the one fixed width. */
  function NewPlatform(x: real, y: real): (p: Platform)
    ensures GetX(p.pos) == x && GetY(p.pos) == y
    ensures p.width == PlatformWidth && !p.visited
  {
    Platform(NewPos(x, y), PlatformWidth, false)
  }

  /** Highest allowed top: at most `maxYDeltaTop` above the previous one, and
      low enough that a player standing on it fits under its jump apex. */
  function MinY(prev: Platform): real {
    Max(prev.pos.y - MaxYDeltaTop, PlayerSize + JumpApexHeight)
  }

  /** Lowest allowed top (exclusive), after Go's `int(...)`: at most
      `maxYDeltaBottom` below the previous one and 20 pixels above the floor. */
  function MaxY(prev: Platform, t: Tuning): int {
    Trunc(Min(ScreenHeight - 20.0, prev.pos.y + t.maxYDeltaBottom as real))
  }

  function YSpan(prev: Platform, t: Tuning): int { MaxY(prev, t) - Trunc(MinY(prev)) }

  /** `GenerateNewRandomPlatform(prev)` with its `rand.Intn` draw `ky` as a
      parameter. The next platform sits exactly one spacing to the right, in
      the band `[MinY, min(screenHeight - 20, prev.y + maxYDeltaBottom))`;
      it panics when that band truncates to an empty integer range. */
  function Generate(prev: Platform, t: Tuning, ky: int): (res: Result<Platform>)
    requires FitsSpan(ky, YSpan(prev, t))
    ensures res.Ok? <==> 0 < YSpan(prev, t)
    ensures res.Ok? ==>
              var p := res.value;
              && p.pos.x == prev.pos.x + PlatformSpacing
              && MinY(prev) <= p.pos.y
              && p.pos.y < Min(ScreenHeight - 20.0, prev.pos.y + t.maxYDeltaBottom as real)
              && p.pos.y < ScreenHeight - 20.0
              && p.width == PlatformWidth && !p.visited
  {
    if YSpan(prev, t) <= 0 then Panic(NonPositiveIntn)
    else
      YDrawInBand(prev, t, ky);
      Ok(NewPlatform(prev.pos.x + PlatformSpacing, ky as real + MinY(prev)))
  }

  lemma YDrawInBand(prev: Platform, t: Tuning, ky: int)
    requires 0 < YSpan(prev, t) && FitsSpan(ky, YSpan(prev, t))
    ensures MinY(prev) <= ky as real + MinY(prev)
    ensures ky as real + MinY(prev) < Min(ScreenHeight - 20.0, prev.pos.y + t.maxYDeltaBottom as real)
  {
    var lo := MinY(prev);
    var hi := Min(ScreenHeight - 20.0, prev.pos.y + t.maxYDeltaBottom as real);
    assert lo - 1.0 < Trunc(lo) as real;
    assert 0.0 <= hi;
    assert Trunc(hi) as real <= hi;
  }

  /** For whole-number coordinates the band test is exact: generation
      succeeds iff the climb limit lies strictly above the lowest top. */
  lemma GenerateOkIffWhole(prev: Platform, t: Tuning, ky: int, y: int)
    requires prev.pos.y == y as real && FitsSpan(ky, YSpan(prev, t))
    ensures Generate(prev, t, ky).Ok? <==>
              MinY(prev) < Min(ScreenHeight - 20.0, prev.pos.y + t.maxYDeltaBottom as real)
  {
    var lo := MinY(prev);
    var hi := Min(ScreenHeight - 20.0, prev.pos.y + t.maxYDeltaBottom as real);
    if y - 120 >= 180 {
      assert lo == (y - 120) as real;
      TruncWhole(y - 120);
    } else {
      assert lo == 180.0;
      TruncWhole(180);
    }
    if y + t.maxYDeltaBottom <= 460 {
      assert hi == (y + t.maxYDeltaBottom) as real;
      TruncWhole(y + t.maxYDeltaBottom);
    } else {
      assert hi == 460.0;
      TruncWhole(460);
    }
  }
}

=== FILE: legacy_players.dfy ===
/** The older player of the top-level package (player.go): the same
    movement rules without any sprite state. */
module LegacyPlayers {
  import opened Config
  import opened Positions
  import opened PlayerStats
  import Players

  datatype Player = Player(pos: Pos, stats: Stats, velocityX: real, velocityY: real, isJumping: bool)

  /** Zeroes position, velocities and the jump flag; the stats stay. */
  function Reset(p: Player): (r: Player)
    ensures GetX(r.pos) == 0.0 && GetY(r.pos) == 0.0
    ensures r.velocityX == 0.0 && r.velocityY == 0.0 && !r.isJumping
    ensures r.stats == p.stats
  {
    p.(pos := Positions.Reset(p.pos), velocityX := 0.0, velocityY := 0.0, isJumping := false)
  }

  function Jump(p: Player): (r: Player)
    ensures r.velocityY == GetJumpForce(p.stats) && r.isJumping
    ensures r.pos == p.pos && r.stats == p.stats && r.velocityX == p.velocityX
  {
    p.(velocityY := GetJumpForce(p.stats), isJumping := true)
  }

  /** Same acceleration rule as the current game: reversal zeroes the
      velocity, acceleration applies only up to the cap, then the player
      moves by the new velocity. */
  function Move(p: Player, dir: real): (r: Player)
    ensures r.velocityX == Players.Accelerate(p.velocityX, dir, p.stats)
    ensures GetX(r.pos) == GetX(p.pos) + r.velocityX && GetY(r.pos) == GetY(p.pos)
    ensures r.stats == p.stats && r.velocityY == p.velocityY && r.isJumping == p.isJumping
  {
    var v := Players.Accelerate(p.velocityX, dir, p.stats);
    p.(velocityX := v, pos := SetX(p.pos, p.pos.x + v))
  }

  function MoveLeft(p: Player): (r: Player)
    ensures 0.0 <= p.stats.playerAcceleration ==> r.velocityX <= 0.0 && r.pos.x <= p.pos.x
    ensures r == Move(p, Left)
  {
    Move(p, Left)
  }

  function MoveRight(p: Player): (r: Player)
    ensures 0.0 <= p.stats.playerAcceleration ==> 0.0 <= r.velocityX && p.pos.x <= r.pos.x
    ensures r == Move(p, Right)
  {
    Move(p, Right)
  }

  function SetStats(p: Player, jumpForce: real, acceleration: real, maxSpeed: real): (r: Player)
    ensures GetJumpForce(r.stats) == jumpForce
    ensures GetPlayerAcceleration(r.stats) == acceleration
    ensures GetMaxPlayerSpeed(r.stats) == maxSpeed
    ensures r.(stats := p.stats) == p
  {
    p.(stats := PlayerStats.SetStats(p.stats, jumpForce, acceleration, maxSpeed))
  }

  /** The older player seen inside a current one. */
  function Forget(p: Players.Player): Player
  {
    Player(p.pos, p.stats, p.velocityX, p.velocityY, p.isJumping)
  }

  /** The two copies of the movement rules agree: forgetting the sprite state
      commutes with `Reset`, `Jump`, `Move` and `SetStats`. */
  lemma CopiesAgree(p: Players.Player, dir: real, jf: real, acc: real, mx: real)
    ensures Forget(Players.Reset(p)) == Reset(Forget(p))
    ensures Forget(Players.Jump(p)) == Jump(Forget(p))
    ensures Forget(Players.Move(p, dir)) == Move(Forget(p), dir)
    ensures Forget(Players.SetStats(p, jf, acc, mx)) == SetStats(Forget(p), jf, acc, mx)
  {
  }
}

=== FILE: outcomes.dfy ===
/** How a Go runtime panic shows up in the model: an operation that could
    panic returns a `Result`, and the panic is its error value. */
module Outcomes {

  /** The two panics the game core can raise. */
  datatype Fault =
    | IndexOutOfRange   // indexing an empty platform list, or `numbers[i]` past its end
    | NonPositiveIntn   // `rand.Intn(n)` called with `n <= 0`

  datatype Result<+T> = Ok(value: T) | Panic(fault: Fault)
}

=== FILE: platforms.dfy ===
/** Rooftop platforms and their generator (game/platform.go). */
module Platforms {
  import opened Config
  import opened GoMath
  import opened Positions
  import opened Outcomes

  datatype Platform = Platform(pos: Pos, width: real, framesSinceVisited: int, visited: bool)

  /** The state part of `NewPlatform` (the building sprite is not modelled). */
  function NewPlatform(x: real, y: real, width: real): (p: Platform)
    ensures GetX(p.pos) == x && GetY(p.pos) == y && p.width == width
    ensures !p.visited && p.framesSinceVisited == 0
  {
    Platform(NewPos(x, y), width, 0, false)
  }

  /** The state part of `Visit`: the flag is set, the geometry is kept. */
  function Visit(p: Platform): (r: Platform)
    ensures r.visited && r.pos == p.pos && r.width == p.width
    ensures r.framesSinceVisited == p.framesSinceVisited
  {
    p.(visited := true)
  }

  /** The widths of the building sprites, widest (easiest) first, in the
      order the generator offers them to `PickWidth`. */
  const BuildingWidths: seq<real> := [175.0, 150.0, 125.0, 100.0, 75.0]

  /** Which building sprite a width uses: `(int(width) - 75) / 25` in Go's
      truncating arithmetic. Exactly the widths in `[51, 200)` get one of the
      sprites that exist. */
  function PlatformIndex(width: real): (i: int)
    ensures 0 <= i < NumBuildingImages <==> 51.0 <= width < 200.0
  {
    Quo(Trunc(width) - 75, 25)
  }

  /** Each building width gets its own sprite, in ascending order of width. */
  lemma BuildingIndices()
    ensures PlatformIndex(75.0) == 0 && PlatformIndex(100.0) == 1 && PlatformIndex(125.0) == 2
    ensures PlatformIndex(150.0) == 3 && PlatformIndex(175.0) == 4
    ensures forall w :: w in BuildingWidths ==> 0 <= PlatformIndex(w) < NumBuildingImages
  {
  }

  /** Sum of the first `n` weights. */
  function PrefixSum(ws: seq<real>, n: nat): real
    requires n <= |ws|
  {
    if n == 0 then 0.0 else PrefixSum(ws, n - 1) + ws[n - 1]
  }

  /** The difficulty table: as the score passes 10, 20, ..., 60 the
      probability moves from the wide buildings to the narrow ones. Every
      row is a probability distribution over the five widths. */
  function Weights(counter: int): (ws: seq<real>)
    ensures |ws| == NumBuildingImages
    ensures forall i :: 0 <= i < |ws| ==> 0.0 <= ws[i]
    ensures PrefixSum(ws, |ws|) == 1.0
  {
    if counter > 60 then [0.01, 0.02, 0.3, 0.3, 0.37]
    else if counter > 50 then [0.05, 0.05, 0.3, 0.3, 0.3]
    else if counter > 40 then [0.15, 0.15, 0.25, 0.25, 0.2]
    else if counter > 30 then [0.3, 0.2, 0.2, 0.15, 0.15]
    else if counter > 20 then [0.5, 0.3, 0.1, 0.05, 0.05]
    else if counter > 10 then [0.37, 0.3, 0.3, 0.02, 0.01]
    else [0.5, 0.4, 0.1, 0.0, 0.0]
  }

  /** The thresholds are strict: a score of 10 still gets the easiest table. */
  lemma WeightThresholds()
    ensures Weights(10) == Weights(0) && Weights(11) != Weights(10)
    ensures Weights(20) == Weights(11) && Weights(21) != Weights(20)
    ensures Weights(60) == Weights(51) && Weights(61) != Weights(60)
  {
  }

  /** The scan of `pickWidth` from position `i`, the running sum being the
      sum of the weights before `i`: the least index at or after `i` whose
      prefix sum exceeds `r`, or `|ws|` when there is none. */
  function PickFrom(ws: seq<real>, r: real, i: nat, sum: real): (k: nat)
    requires i <= |ws| && sum == PrefixSum(ws, i)
    requires forall j :: 1 <= j <= i ==> PrefixSum(ws, j) <= r
    ensures i <= k <= |ws|
    ensures k < |ws| ==> r < PrefixSum(ws, k + 1)
    ensures forall j :: 1 <= j <= k ==> PrefixSum(ws, j) <= r
    decreases |ws| - i
  {
    if i == |ws| then |ws|
    else if r < sum + ws[i] then i
    else PickFrom(ws, r, i + 1, sum + ws[i])
  }

  /** Inverse-CDF selection: the least index whose prefix sum exceeds `r`. */
  function PickIndex(ws: seq<real>, r: real): (k: nat)
    ensures k <= |ws|
    ensures k < |ws| ==> r < PrefixSum(ws, k + 1)
    ensures forall j :: 1 <= j <= k ==> PrefixSum(ws, j) <= r
  {
    PickFrom(ws, r, 0, 0.0)
  }

  /** `pickWidth(counter, numbers...)` with its draw `r` as a parameter.
      The pick is `numbers[k]` for the index `PickIndex` selects, or the last
      number when the scan falls off the end; it is always one of the
      numbers. Too few numbers make Go index out of range. */
  function PickWidth(counter: int, numbers: seq<real>, r: real): (res: Result<real>)
    ensures res.Ok? ==> res.value in numbers
    ensures NumBuildingImages <= |numbers| ==> res.Ok?
    ensures var k := PickIndex(Weights(counter), r);
              k < NumBuildingImages && k < |numbers| ==> res == Ok(numbers[k])
    ensures PickIndex(Weights(counter), r) == NumBuildingImages && 0 < |numbers| ==>
              res == Ok(numbers[|numbers| - 1])
  {
    var k := PickIndex(Weights(counter), r);
    if k < NumBuildingImages then
      if k < |numbers| then Ok(numbers[k]) else Panic(IndexOutOfRange)
    else if 0 < |numbers| then Ok(numbers[|numbers| - 1])
    else Panic(IndexOutOfRange)
  }

  /** With exact arithmetic the fallback is dead: every table sums to one,
      so a draw in `[0, 1)` is always below the last prefix sum. */
  lemma NoFallback(counter: int, r: real)
    requires 0.0 <= r < 1.0
    ensures PickIndex(Weights(counter), r) < NumBuildingImages
  {
    var ws := Weights(counter);
    assert r < PrefixSum(ws, |ws|);
  }

  /** Up to a score of 10 the two narrowest buildings have weight zero and
      are never picked; the widest is picked exactly when `r < 0.5`. */
  lemma EasyTableNeverNarrow(counter: int, r: real)
    requires counter <= 10 && 0.0 <= r < 1.0
    ensures PickWidth(counter, BuildingWidths, r).Ok?
    ensures PickWidth(counter, BuildingWidths, r).value in {175.0, 150.0, 125.0}
    ensures PickWidth(counter, BuildingWidths, r).value == 175.0 <==> r < 0.5
  {
    var ws := Weights(counter);
    var k := PickIndex(ws, r);
    assert PrefixSum(ws, 1) == 0.5 && PrefixSum(ws, 2) == 0.9 && PrefixSum(ws, 3) == 1.0;
  }

  /** One generation's random draws: `kx` and `ky` for the two `rand.Intn`
      calls, `r` for `rand.Float64` inside `pickWidth`. */
  datatype Draws = Draws(kx: int, ky: int, r: real)

  function MinX(prev: Platform): real { prev.pos.x + prev.width + PlatformSpacing - 50.0 }

  function MaxX(prev: Platform): real { prev.pos.x + prev.width + PlatformSpacing + 50.0 }

  function XSpan(prev: Platform): int { Trunc(MaxX(prev)) - Trunc(MinX(prev)) }

  /** The highest the next platform may sit: at most `maxYDeltaTop` above the
      previous one, and never above `maxPlatformHeight`. */
  function MinY(prev: Platform, t: Tuning): real {
    Max(prev.pos.y - MaxYDeltaTop, t.maxPlatformHeight as real)
  }

  /** The lowest the next platform may sit (exclusive). */
  function MaxY(t: Tuning): real { ScreenHeight - t.minimumPlatformHeight as real }

  function YSpan(prev: Platform, t: Tuning): int { Trunc(MaxY(t)) - Trunc(MinY(prev, t)) }

  predicate DrawsFit(prev: Platform, t: Tuning, d: Draws) {
    FitsSpan(d.kx, XSpan(prev)) && FitsSpan(d.ky, YSpan(prev, t)) && 0.0 <= d.r < 1.0
  }

  /** The horizontal span is never empty: it has 99 or 100 integer slots. */
  lemma XSpanPositive(prev: Platform)
    ensures 99 <= XSpan(prev) <= 100
  {
    assert MaxX(prev) == MinX(prev) + 100 as real;
    TruncSpan(MinX(prev), 100);
  }

  /** The drawn x, `kx + minX`, lies in `[minX, minX + 100)`. */
  lemma XDrawInBand(prev: Platform, kx: int)
    requires FitsSpan(kx, XSpan(prev))
    ensures MinX(prev) <= kx as real + MinX(prev) < MinX(prev) + 100.0
  {
    XSpanPositive(prev);
  }

  /** The drawn y, `ky + minY`, lies in `[minY, maxY)`: the fraction that
      truncating `minY` drops is less than one. */
  lemma YDrawInBand(prev: Platform, t: Tuning, ky: int)
    requires 0 < YSpan(prev, t) && FitsSpan(ky, YSpan(prev, t))
    ensures MinY(prev, t) <= ky as real + MinY(prev, t) < MaxY(t)
  {
    var m := MinY(prev, t);
    assert m - 1.0 < Trunc(m) as real;
    TruncWhole(480 - t.minimumPlatformHeight);
    assert Trunc(MaxY(t)) == 480 - t.minimumPlatformHeight;
    assert ky <= Trunc(MaxY(t)) - Trunc(m) - 1;
  }

  /** `GenerateNewRandomPlatform(prev, score)`. The next rooftop starts 250
      to 350 pixels past the previous one's right edge, sits in the band
      `[MinY, MaxY)` (so at most `maxYDeltaTop` above the previous one), and
      has one of the building widths. It panics exactly when the vertical
      band truncates to an empty integer range. The offsets into the two
      bands are the draws `kx` and `ky`, and the width is the one `pickWidth`
      chooses for the score. */
  function Generate(prev: Platform, score: int, t: Tuning, d: Draws): (res: Result<Platform>)
    requires DrawsFit(prev, t, d)
    ensures res.Ok? <==> 0 < YSpan(prev, t)
    ensures res.Ok? ==>
              var p := res.value;
              && prev.pos.x + prev.width + PlatformSpacing - 50.0 <= p.pos.x
              && p.pos.x < prev.pos.x + prev.width + PlatformSpacing + 50.0
              && MinY(prev, t) <= p.pos.y < MaxY(t)
              && prev.pos.y - MaxYDeltaTop <= p.pos.y
              && t.maxPlatformHeight as real <= p.pos.y
              && p.width in BuildingWidths
              && !p.visited && p.framesSinceVisited == 0
    ensures res.Ok? ==>
              && PickWidth(score, BuildingWidths, d.r).Ok?
              && res.value.width == PickWidth(score, BuildingWidths, d.r).value
    ensures res.Ok? ==>
              res.value.pos.x == d.kx as real + MinX(prev) && res.value.pos.y == d.ky as real + MinY(prev, t)
  {
    XSpanPositive(prev);
    if XSpan(prev) <= 0 then Panic(NonPositiveIntn)
    else if YSpan(prev, t) <= 0 then Panic(NonPositiveIntn)
    else
      XDrawInBand(prev, d.kx);
      YDrawInBand(prev, t, d.ky);
      match PickWidth(score, BuildingWidths, d.r)
      case Panic(f) => Panic(f)
      case Ok(w) => Ok(NewPlatform(d.kx as real + MinX(prev), d.ky as real + MinY(prev, t), w))
  }

  /** With a valid tuning, generation succeeds exactly when the previous
      platform's climb limit lies above the screen floor band. */
  lemma GenerateOkIff(prev: Platform, score: int, t: Tuning, d: Draws)
    requires t.Valid() && DrawsFit(prev, t, d)
    ensures Generate(prev, score, t, d).Ok? <==> MinY(prev, t) < MaxY(t)
  {
    var m := MinY(prev, t);
    assert 0.0 <= m;
    assert Trunc(m) as real <= m < Trunc(m) as real + 1.0;
    TruncWhole(480 - t.minimumPlatformHeight);
    assert Trunc(MaxY(t)) == 480 - t.minimumPlatformHeight;
  }

  /** Generation never stalls: a platform the generator produced is always
      a valid predecessor for the next one. */
  lemma GenerationChains(prev: Platform, score: int, t: Tuning, d: Draws, d': Draws, score': int)
    requires t.Valid() && DrawsFit(prev, t, d)
    requires Generate(prev, score, t, d).Ok?
    requires DrawsFit(Generate(prev, score, t, d).value, t, d')
    ensures Generate(Generate(prev, score, t, d).value, score', t, d').Ok?
  {
    var p := Generate(prev, score, t, d).value;
    assert p.pos.y - MaxYDeltaTop < MaxY(t);
    GenerateOkIff(p, score', t, d');
  }

  /** `giveOrTake(num, delta)` with its `rand.Intn` draw `k` as a parameter:
      a value in `[num - delta, num + delta)`; it panics when the truncated
      range is empty. */
  function GiveOrTake(num: real, delta: real, k: int): (res: Result<real>)
    requires FitsSpan(k, Trunc(num + delta) - Trunc(num - delta))
    ensures res.Ok? <==> Trunc(num - delta) < Trunc(num + delta)
    ensures res.Ok? ==> num - delta <= res.value < num + delta
  {
    var n := Trunc(num + delta) - Trunc(num - delta);
    if n <= 0 then Panic(NonPositiveIntn)
    else Ok(k as real + num - delta)
  }

  /** For a whole-number centre and radius the range is never empty. */
  lemma GiveOrTakeWhole(num: int, delta: int, k: int)
    requires 0 < delta && 0 <= k < delta + delta
    ensures Trunc(num as real + delta as real) - Trunc(num as real - delta as real) == delta + delta
    ensures GiveOrTake(num as real, delta as real, k) == Ok((num - delta + k) as real)
  {
    var hi, lo := num as real + delta as real, num as real - delta as real;
    assert hi == (num + delta) as real && lo == (num - delta) as real;
    TruncWhole(num + delta);
    TruncWhole(num - delta);
    assert Trunc(hi) - Trunc(lo) == delta + delta;
  }
}

=== FILE: players.dfy ===
/** The player of the current game (game/player.go): position, stats,
    velocity, the jump flag and the sprite-cycling counter. */
module Players {
  import opened Config
  import opened GoMath
  import opened Positions
  import opened PlayerStats

  datatype Player = Player(
    pos: Pos,
    stats: Stats,
    velocityX: real,
    velocityY: real,
    isJumping: bool,
    imageNum: int,          // index of the running sprite shown
    animationCounter: int)  // frames left before the next sprite

  /** Everything but the sprite-cycling fields agrees. */
  predicate SameBody(p: Player, q: Player) {
    p.pos == q.pos && p.stats == q.stats && p.velocityX == q.velocityX
    && p.velocityY == q.velocityY && p.isJumping == q.isJumping
  }

  /** A new player stands still, not jumping, horizontally centred on the
      screen at the top, with the starting stats and the first sprite. */
  function NewPlayer(): (p: Player)
    ensures p.pos.x + PlayerSize / 2.0 == ScreenWidth / 2.0 && p.pos.y == 0.0
    ensures p.velocityX == 0.0 && p.velocityY == 0.0 && !p.isJumping
    ensures p.stats == StartingStats()
    ensures p.imageNum == 0 && p.animationCounter == 0
  {
    Player(Pos(ScreenWidth / 2.0 - PlayerSize / 2.0, 0.0), StartingStats(), 0.0, 0.0, false, 0, 0)
  }

  /** Puts the player back at the start spot with the starting stats; the
      velocities, the jump flag and the sprite are left as they were. */
  function ResetPlayer(p: Player): (r: Player)
    ensures r.pos == NewPlayer().pos && r.stats == StartingStats()
    ensures r.velocityX == p.velocityX && r.velocityY == p.velocityY && r.isJumping == p.isJumping
    ensures r.imageNum == p.imageNum && r.animationCounter == p.animationCounter
  {
    p.(pos := Pos(ScreenWidth / 2.0 - PlayerSize / 2.0, 0.0), stats := StartingStats())
  }

  /** Zeroes position, both velocities and the jump flag; the stats and the
      sprite are kept. */
  function Reset(p: Player): (r: Player)
    ensures GetX(r.pos) == 0.0 && GetY(r.pos) == 0.0
    ensures r.velocityX == 0.0 && r.velocityY == 0.0 && !r.isJumping
    ensures r.stats == p.stats && r.imageNum == p.imageNum && r.animationCounter == p.animationCounter
  {
    p.(pos := Positions.Reset(p.pos), velocityX := 0.0, velocityY := 0.0, isJumping := false)
  }

  /** What `startOver` does to the player (`Reset`, then `ResetPlayer`):
      the result is a new player, except that the sprite carries on. */
  lemma RestartGivesNewPlayer(p: Player)
    ensures SameBody(ResetPlayer(Reset(p)), NewPlayer())
    ensures ResetPlayer(Reset(p)) == NewPlayer().(imageNum := p.imageNum, animationCounter := p.animationCounter)
  {
  }

  /** The jump impulse: vertical velocity becomes the jump force and the
      player is marked as jumping; nothing else changes. */
  function Jump(p: Player): (r: Player)
    ensures r.velocityY == GetJumpForce(p.stats) && r.isJumping
    ensures r.pos == p.pos && r.stats == p.stats && r.velocityX == p.velocityX
    ensures r.imageNum == p.imageNum && r.animationCounter == p.animationCounter
  {
    p.(velocityY := GetJumpForce(p.stats), isJumping := true)
  }

  /** The velocity half of `Move`: a velocity that opposes `dir` is dropped
      to zero at once, and the acceleration is added only while the speed
      in direction `dir` has not passed the cap. */
  function Accelerate(v: real, dir: real, s: Stats): (w: real)
    ensures dir * v < 0.0 ==> w == (if 0.0 <= GetMaxPlayerSpeed(s) then dir * GetPlayerAcceleration(s) else 0.0)
    ensures 0.0 <= dir * v <= GetMaxPlayerSpeed(s) ==> w == v + dir * GetPlayerAcceleration(s)
    ensures 0.0 <= dir * v && GetMaxPlayerSpeed(s) < dir * v ==> w == v
  {
    var v0 := if dir * v < 0.0 then 0.0 else v;
    if dir * v0 <= GetMaxPlayerSpeed(s) then v0 + dir * GetPlayerAcceleration(s) else v0
  }

  /** The speed bound `Move` keeps: with non-negative stats and a unit
      direction, a speed of at most `maxPlayerSpeed + playerAcceleration`
      stays within it, and the new velocity never opposes `dir`. */
  lemma AccelerateKeepsSpeedBound(v: real, dir: real, s: Stats)
    requires dir == Left || dir == Right
    requires 0.0 <= s.playerAcceleration && 0.0 <= s.maxPlayerSpeed
    requires Abs(v) <= s.maxPlayerSpeed + s.playerAcceleration
    ensures Abs(Accelerate(v, dir, s)) <= s.maxPlayerSpeed + s.playerAcceleration
    ensures 0.0 <= dir * Accelerate(v, dir, s)
  {
  }

  /** One frame of horizontal input: update the velocity, then move by it. */
  function Move(p: Player, dir: real): (r: Player)
    ensures r.velocityX == Accelerate(p.velocityX, dir, p.stats)
    ensures GetX(r.pos) == GetX(p.pos) + r.velocityX && GetY(r.pos) == GetY(p.pos)
    ensures r.stats == p.stats && r.velocityY == p.velocityY && r.isJumping == p.isJumping
    ensures r.imageNum == p.imageNum && r.animationCounter == p.animationCounter
  {
    var v := Accelerate(p.velocityX, dir, p.stats);
    p.(velocityX := v, pos := SetX(p.pos, p.pos.x + v))
  }

  /** Moving left never leaves a rightward velocity and never moves right. */
  function MoveLeft(p: Player): (r: Player)
    ensures 0.0 <= p.stats.playerAcceleration ==> r.velocityX <= 0.0 && r.pos.x <= p.pos.x
    ensures r.velocityX == Accelerate(p.velocityX, Left, p.stats)
    ensures r == Move(p, Left)
  {
    Move(p, Left)
  }

  /** Moving right never leaves a leftward velocity and never moves left. */
  function MoveRight(p: Player): (r: Player)
    ensures 0.0 <= p.stats.playerAcceleration ==> 0.0 <= r.velocityX && p.pos.x <= r.pos.x
    ensures r.velocityX == Accelerate(p.velocityX, Right, p.stats)
    ensures r == Move(p, Right)
  {
    Move(p, Right)
  }

  function SetStats(p: Player, jumpForce: real, acceleration: real, maxSpeed: real): (r: Player)
    ensures GetJumpForce(r.stats) == jumpForce
    ensures GetPlayerAcceleration(r.stats) == acceleration
    ensures GetMaxPlayerSpeed(r.stats) == maxSpeed
    ensures r.(stats := p.stats) == p
  {
    p.(stats := PlayerStats.SetStats(p.stats, jumpForce, acceleration, maxSpeed))
  }

  /** The sprite-cycling step of `Draw`: a positive countdown is decremented
      and nothing else happens; at zero the countdown restarts at 10 and the
      sprite index advances, wrapping at the number of player images. */
  function CycleImage(p: Player): (r: Player)
    ensures 0 < p.animationCounter ==> r.animationCounter == p.animationCounter - 1 && r.imageNum == p.imageNum
    ensures p.animationCounter <= 0 ==> r.animationCounter == PlayerCycleFrames
    ensures p.animationCounter <= 0 && 0 <= p.imageNum < NumPlayerImages ==>
              r.imageNum == (p.imageNum + 1) % NumPlayerImages
    ensures 0 <= p.imageNum < NumPlayerImages ==> 0 <= r.imageNum < NumPlayerImages
    ensures SameBody(r, p)
  {
    if p.animationCounter > 0 then
      p.(animationCounter := p.animationCounter - 1)
    else
      var next := p.imageNum + 1;
      p.(animationCounter := PlayerCycleFrames, imageNum := if next >= NumPlayerImages then 0 else next)
  }

  /** `CycleImage` applied `n` times, one per drawn frame. */
  function CycleTimes(p: Player, n: nat): Player
    decreases n
  {
    if n == 0 then p else CycleTimes(CycleImage(p), n - 1)
  }

  /** From a countdown of `c`, the sprite changes exactly on the `c + 1`-th
      frame: the first `c` frames only count down, the next advances it. */
  lemma {:induction false} CycleCadence(p: Player, n: nat)
    requires 0 <= p.animationCounter && 0 <= p.imageNum < NumPlayerImages
    requires n <= p.animationCounter + 1
    decreases n
    ensures n <= p.animationCounter ==>
              CycleTimes(p, n).imageNum == p.imageNum
              && CycleTimes(p, n).animationCounter == p.animationCounter - n
    ensures n == p.animationCounter + 1 ==>
              CycleTimes(p, n).imageNum == (p.imageNum + 1) % NumPlayerImages
              && CycleTimes(p, n).animationCounter == PlayerCycleFrames
  {
    if n > 0 {
      var q := CycleImage(p);
      if p.animationCounter > 0 {
        CycleCadence(q, n - 1);
      }
    }
  }
}

=== FILE: positions.dfy ===
/** `Pos`, the world position every entity embeds (pos.go). */
module Positions {
  import opened GoMath

  datatype Pos = Pos(x: real, y: real)

  function NewPos(x: real, y: real): (p: Pos)
    ensures GetX(p) == x && GetY(p) == y
  {
    Pos(x, y)
  }

  function GetPos(p: Pos): Pos { p }

  function GetX(p: Pos): real { p.x }

  function GetY(p: Pos): real { p.y }

  /** Overwrites the whole position: reading it back yields `q`. */
  function SetPos(p: Pos, q: Pos): (r: Pos)
    ensures GetPos(r) == q && GetX(r) == GetX(q) && GetY(r) == GetY(q)
  {
    q
  }

  function SetX(p: Pos, x: real): (r: Pos)
    ensures GetX(r) == x && GetY(r) == GetY(p)
  {
    p.(x := x)
  }

  function SetY(p: Pos, y: real): (r: Pos)
    ensures GetY(r) == y && GetX(r) == GetX(p)
  {
    p.(y := y)
  }

  /** Horizontal distance only: the vertical coordinates play no part. */
  function GetDist(p: Pos, other: Pos): (d: real)
    ensures 0.0 <= d
    ensures d == GetX(p) - GetX(other) || d == GetX(other) - GetX(p)
  {
    Abs(p.x - other.x)
  }

  lemma GetDistSymmetricIgnoresY(p: Pos, q: Pos, y1: real, y2: real)
    ensures GetDist(p, q) == GetDist(q, p)
    ensures GetDist(SetY(p, y1), SetY(q, y2)) == GetDist(p, q)
    ensures GetDist(p, p) == 0.0
  {
  }

  function Reset(p: Pos): (r: Pos)
    ensures GetX(r) == 0.0 && GetY(r) == 0.0
  {
    Pos(0.0, 0.0)
  }
}

=== FILE: stats.dfy ===
/** The player's tunable movement figures (game/stats.go). The copy of the
    same record in game/player.go calls the middle field `playerSpeed`; it is
    the per-frame horizontal acceleration either way. */
module PlayerStats {
  import Config

  datatype Stats = Stats(jumpForce: real, playerAcceleration: real, maxPlayerSpeed: real)

  function GetJumpForce(s: Stats): real { s.jumpForce }

  function GetPlayerAcceleration(s: Stats): real { s.playerAcceleration }

  function GetMaxPlayerSpeed(s: Stats): real { s.maxPlayerSpeed }

  function SetJumpForce(s: Stats, v: real): (r: Stats)
    ensures GetJumpForce(r) == v
    ensures GetPlayerAcceleration(r) == GetPlayerAcceleration(s)
    ensures GetMaxPlayerSpeed(r) == GetMaxPlayerSpeed(s)
  {
    s.(jumpForce := v)
  }

  function SetPlayerAcceleration(s: Stats, v: real): (r: Stats)
    ensures GetPlayerAcceleration(r) == v
    ensures GetJumpForce(r) == GetJumpForce(s)
    ensures GetMaxPlayerSpeed(r) == GetMaxPlayerSpeed(s)
  {
    s.(playerAcceleration := v)
  }

  function SetMaxPlayerSpeed(s: Stats, v: real): (r: Stats)
    ensures GetMaxPlayerSpeed(r) == v
    ensures GetJumpForce(r) == GetJumpForce(s)
    ensures GetPlayerAcceleration(r) == GetPlayerAcceleration(s)
  {
    s.(maxPlayerSpeed := v)
  }

  /** `SetStats` of both player files: the three setters in a row. Whatever
      the record held before, the result reads back exactly the given values. */
  function SetStats(s: Stats, jumpForce: real, acceleration: real, maxSpeed: real): (r: Stats)
    ensures GetJumpForce(r) == jumpForce
    ensures GetPlayerAcceleration(r) == acceleration
    ensures GetMaxPlayerSpeed(r) == maxSpeed
  {
    SetMaxPlayerSpeed(SetPlayerAcceleration(SetJumpForce(s, jumpForce), acceleration), maxSpeed)
  }

  /** The stats every new or restarted player gets. */
  function StartingStats(): (r: Stats)
    ensures GetJumpForce(r) < 0.0 && 0.0 < GetPlayerAcceleration(r) < GetMaxPlayerSpeed(r)
    ensures GetJumpForce(r) == -12.0 && GetPlayerAcceleration(r) == 0.2 && GetMaxPlayerSpeed(r) == 5.0
  {
    Stats(Config.StartingJumpForce, Config.StartingPlayerSpeed, Config.StartingMaxPlayerSpeed)
  }
}
